=== FILE: README.md ===
# MPLS router simulator: verified model of `network3.py`

This project models the network layer of a small packet-switching simulator, written in Dafny.
Hosts wrap application data in "Network" link frames. Routers poll their interfaces and
label-switch what they find using three read-only tables:

- the encapsulation table maps `(src, dst, priority)` to a label;
- the forwarding table maps a label to an out-interface;
- the decapsulation table maps an out-interface to a flag.

Modules follow the classes of `network3.py`:

- `PyStr` (`pystr.dfy`): the Python string operations the codecs use. These are slicing,
  `zfill`, `strip('0')`, `str(n)` and `int(s)`.
- `Interfaces` (`interfaces.dfy`): `queue.Queue` as a bounded FIFO `Fifo<T>`, where bound 0
  means unbounded. An `Interface` is a pair of such queues.
- `Packets` (`packets.dfy`): `NetworkPacket` and `MPLSFrame` and their fixed-width textual
  codecs.
- `Routers` (`routers.dfy`): the tables, `process_queues`, `process_network_packet` and
  `process_MPLS_frame`.
- `Hosts` (`hosts.dfy`): `udt_send` and `udt_receive`.
- `Lifecycle` (`lifecycle.dfy`) and `Scenarios` (`scenarios.dfy`): a host frame crossing a
  router, an MPLS frame crossing a second hop, and concrete forwarding cases.
- `Links` (`links.dfy`) and `Results` (`results.dfy`): the link frame and Option/Result.

Operations are pure functions. A Python exception becomes a `Failure` value:

- the `raise` for an unknown frame type;
- a `KeyError` from a table;
- an `IndexError` from the interface list;
- a `ValueError` from `int()`;
- the host's failed `assert`;
- `queue.Full`.

Where the code and its comments disagree, the model follows the code:

- Decapsulation flag. The comment at `network3.py:237` reads as if membership in the
  decapsulation table means "decapsulate". The code does the opposite. A flag equal to 0
  sends the frame on as an "MPLS" envelope. Any other flag sends the wrapped packet as a
  "Network" envelope.
- Table misses. `process_MPLS_frame` catches only `queue.Full`. A missing table entry or
  an unreadable label therefore ends the pass with an error. It is not a dropped frame.

The proved lemmas pin down these quirks of the code as written:

- `strip('0')` removes zeros from both ends of the dst field. So dst "10" decodes as "1".
- The src field is never stripped. A table keyed by the bare address "1" therefore never
  matches a frame from host 1, whose src field is "01".
- The router re-reads an MPLS label from two characters with `strip('0')`. Label 20 is
  read as 2. A one-digit label is read together with the first character of the padded
  dst: before a dst shorter than 5 characters that is a '0', so label 0 cannot be read;
  before a full-width dst such as "12345" it is a second digit, so label 7 is read as 71.
- `MPLSFrame.from_byte_S` skips one character and parses the rest as a packet. For a
  one-digit label, the first payload character becomes the priority. Each label-switched
  hop therefore loses one payload character.

## Model

| member | source | states |
|---|---|---|
| `Interfaces.Dequeue` | network3.py:22 | A non-blocking get returns the oldest item and leaves the rest in order. It returns None exactly when the queue is empty. |
| `Interfaces.Enqueue` | network3.py:41 | A non-blocking put appends at the back. It raises Full, changing nothing, exactly when a positive bound is reached. It keeps a bounded queue within its bound. |
| `Interfaces.FifoOrder` | network3.py:12-13 | Items put into a queue with room come out in the order they went in, after the items already queued. |
| `Interfaces.NewInterface` | network3.py:11-13 | A new interface has two empty queues with the same bound. |
| `Interfaces.Get` | network3.py:19-32 | `get('in')` polls the in-queue. Any other direction polls the out-queue. The head comes out FIFO, the other queue is untouched, and an empty queue gives None with nothing changed. Queues within their bounds stay so. |
| `Interfaces.Put` | network3.py:38-44 | `put(.., 'out')` appends to the out-queue. Any other direction appends to the in-queue. Full happens exactly when the target queue is at its bound, and then both queues are unchanged. A put never takes a queue past its bound. |
| `PyStr.StripFixedPoint` | network3.py:82 | `strip('0')` leaves a string unchanged exactly when neither end is '0'. |
| `PyStr.ParseNatToString` | network3.py:236 | `int(str(n)) == n` for a non-negative label. |
| `PyStr.ZFillShape` | network3.py:72-73 | `zfill` puts its '0' padding in front of an unsigned id and after the sign of a signed one. |
| `Packets.ToByteS` | network3.py:71-76 | Padding never truncates an id: each id takes at least its field width, so the encoding is 8 characters plus the payload when the fields fit and longer otherwise. |
| `Packets.PacketLayout` | network3.py:71-76 | For fitting unsigned ids, the encoding is dst left-padded with '0' to 5, src left-padded to 2, the priority character, then the payload, in that order. |
| `Packets.FromByteS` | network3.py:81-86 | The decoded dst fits 5 characters and has no edge '0'. src, priority and payload put back together give exactly what follows the dst field. |
| `Packets.PacketRoundTrip` | network3.py:71-86 | For fitting fields, decoding an encoding returns payload and priority exactly. src comes back as its padded 2-character field and dst as its padded field stripped of '0'. |
| `Packets.DstRoundTrip` | network3.py:82 | A fitting unsigned dst survives the round trip exactly when it has no '0' at either end. |
| `Packets.PacketRoundTripExact` | network3.py:71-86 | A fitting packet with an unsigned dst round-trips exactly when dst has no edge '0' and src is 2 characters. |
| `Packets.CanonicalFieldRoundTrip` | network3.py:72-82 | A dst field of 5 digits with no trailing '0' (or all zeros) is what `zfill(5)` makes of its `strip('0')`. |
| `Packets.DecodeEncode` | network3.py:71-86 | A string whose dst field is a canonical padded number and whose src field is full re-encodes to itself. |
| `Packets.MplsToByteS` | network3.py:101-106 | The MPLS encoding starts with `str(label)`. Its length is the label text plus the padded ids plus the payload, with no priority character. |
| `Packets.ToPktByteS` | network3.py:108-109 | The packet encoding is the MPLS encoding with the label removed and the packet's priority put back in the slot after the padded ids. |
| `Packets.MplsFromByteS` | network3.py:111-115 | An override label is used as given. Without one, the label is the first character, or empty if that character is '0'. The packet is always decoded from everything after the first character. |
| `Packets.MplsDecodeShiftsPayload` | network3.py:101-115 | For a one-character label, a dst of at most 5 unsigned characters with no '0' at either end, a src of at most 2 characters and a non-empty payload: decoding the MPLS encoding keeps dst and the padded src. The first payload character becomes the priority and the payload loses it. |
| `Routers.NewRouter` | network3.py:176-184 | A new router has one empty interface per capacity, all with the given queue bound, and the given tables. |
| `Routers.LabelValue` | network3.py:236 | `int(label)`: an int label is itself. A string label must be all digits, otherwise the result is an error naming the label. |
| `Routers.LabelValueOfText` | network3.py:102 | An int label and its `str()` select the same forwarding entry. |
| `Routers.OutInterface` | network3.py:236-240 | The egress interface is `frwd[int(label)]`. The lookups fail in source order, each with its own error: label, forwarding entry, decapsulation entry, interface index. |
| `Routers.Envelope` | network3.py:238-245 | Interface `out` gets an "MPLS" envelope exactly when its decapsulation flag is 0, and a "Network" envelope otherwise. |
| `Routers.ProcessMplsFrame` | network3.py:230-248 | On success exactly one frame is handled. It goes to `frwd[int(label)]` as an "MPLS" envelope when the flag is 0, else as a "Network" envelope. Only that out-queue grows, and a full queue loses the frame with the router unchanged. |
| `Routers.ProcessNetworkPacket` | network3.py:217-225 | A packet is labelled with `encap[(src, dst, priority)]` and forwarded on that label. A missing key is an error. |
| `Routers.RelabelField` | network3.py:207 | The re-read label fails exactly when the stripped first two characters are not a number. Otherwise it is below 100. |
| `Routers.RelabelRecoversLabel` | network3.py:207 | For every label n < 100 and every following text: a two-digit label comes back, less a trailing 0 (20 reads as 2). A one-digit label followed by nothing or '0' comes back, except label 0, which cannot be read. Followed by a non-zero digit c it reads as 10n + c. Followed by anything else it cannot be read. |
| `Routers.Route` | network3.py:199-245 | Reference routing from the tables alone. An unknown type, a missing encapsulation key and an unreadable label fail with their own errors. A routed frame leaves through an existing interface with a decapsulation entry, as an "MPLS" envelope exactly when that flag is 0. |
| `Routers.ProcessFrame` | network3.py:199-248 | Handling a frame fails exactly when `Route` fails, with the same error. On success the event carries `Route`'s egress interface and envelope, only that out-queue changes, the frame is `Lost` exactly when that queue was full, and queue bounds are kept. |
| `Routers.ProcessInterface` | network3.py:193-212 | An empty in-queue is skipped with nothing changed. Otherwise the head is taken. The step fails exactly when the head cannot be routed, with its error. On success its one event is the head's routing, `Lost` exactly when that out-queue is full. |
| `Routers.NonEmptyIndicesSpec` | network3.py:193-197 | The reference visit order lists each interface with a waiting frame once, in ascending order, and nothing else. |
| `Routers.PassUpTo` | network3.py:193-212 | The first n interfaces each give up at most their head frame. Out-queues grow by exactly the frames forwarded to them. Events follow the reference order, and each is the routing of the head it came from. Each event is `Lost` exactly when its out-queue, holding the frames earlier events forwarded to it, is full. The pass fails exactly when the reference outcome `FirstSome` of the heads' outcomes does, with that error. |
| `Routers.ProcessQueues` | network3.py:192-248 | One pass handles exactly the interfaces that held a frame, in ascending order, one frame each. Each event is the tables' routing of the frame waiting on its in-queue, and it is `Lost` exactly when its out-queue is full at that point of the pass, counting the frames forwarded to it earlier in the pass. Every out-queue grows by exactly its forwarded frames. The pass fails exactly when some waiting head cannot be routed, with the error of the lowest such interface. A pass over empty in-queues changes nothing, and queues stay within their bounds. |
| `Results.FirstSomeSpec` | network3.py:192-212 | A sequence of steps that stops at its first exception fails exactly when some step fails, and reports the first failing step's error. |
| `Routers.PassOutcome` | network3.py:192-212 | A pass stopping at the first unroutable head fails exactly when such a head exists, with the error of the lowest one. |
| `Routers.PassOrder` | network3.py:193-197 | Events in the reference order name each interface holding a frame exactly once, in ascending order, and no interface out of range. |
| `Routers.IdlePass` | network3.py:193-197 | With nothing waiting, a pass is a no-op. |
| `Hosts.NewHost` | network3.py:123-125 | A new host has one interface whose queues are empty and unbounded (bound 0), so neither is full. |
| `Hosts.UdtSend` | network3.py:136-142 | For a string address and an int priority, a send appends one "Network" envelope carrying a packet from the host's address with priority "0". It fails only when the out-queue is full. |
| `Hosts.SentPacketDecodes` | network3.py:136-142 | For a dst of at most 5 unsigned characters with no '0' at either end and an address of at most 2 characters, whatever int priority is requested, the queued packet decodes with that dst, priority "0", the payload intact and the padded host address as src. |
| `Hosts.UdtReceive` | network3.py:146-154 | An empty in-queue is a no-op. A "Network" envelope delivers its payload and is removed, with the rest of the in-queue, its bound and the out-queue unchanged. Any other type is an assertion failure naming the type. |
| `Lifecycle.HostFrameKey` | network3.py:217-221 | For a dst of at most 5 unsigned characters with no '0' at either end and an address of at most 2 characters, a host's frame is looked up under `(padded src, dst, "0")`. A missing key is an EncapMiss error. |
| `Lifecycle.DecapHopPassesHostFrame` | network3.py:217-245 | For a dst of at most 5 unsigned characters with no '0' at either end and an address of at most 2 characters, when the host frame's flow goes to an interface with a non-zero flag, the router emits the host's envelope byte for byte. |
| `Lifecycle.HopRelabels` | network3.py:205-207 | The next router reads the label of a one-digit-label MPLS envelope as `HopLabel`. For a dst shorter than 5 it is the label itself, and label 0 cannot be read. For a full-width dst the first dst character becomes a second digit. |
| `Lifecycle.MplsHopShiftsPayload` | network3.py:202-245 | For every one-digit label, every unsigned dst of up to 5 characters without an edge '0' (every dst a router decodes is one), every src of up to 2 characters and every non-empty payload, an unreadable label ends the pass with its error. Otherwise the frame is forwarded on the label read. Sent on as MPLS it carries that label and has lost the first payload character. Decapsulated, its bytes are the MPLS bytes without the label. |
| `Lifecycle.ReceivedPacketDecodes` | network3.py:146-153 | For a dst of at most 5 unsigned characters with no '0' at either end and an address of at most 2 characters, a host given a host's envelope delivers bytes that decode to the sent packet: dst, padded sender address, payload and priority "0". |
| `Lifecycle.SendRouteReceive` | network3.py:136-153 | For a dst of at most 5 unsigned characters with no '0' at either end and an address of at most 2 characters, the envelope `udt_send` queues is routed by a router whose flow leads to an interface with a non-zero flag. The frame it emits, put on a new host's in-queue, is delivered by `udt_receive` as the sent dst and payload from the sender's padded address, with priority "0". |
| `Scenarios.FlagZeroEmitsMpls` | network3.py:238-240 | With flag 0 the frame leaves interface 1 as the MPLS envelope "7" + "00002" + "01" + "hi": label, padded dst, padded src, payload, and no priority. |
| `Scenarios.FlagOneEmitsNetwork` | network3.py:242-244 | With flag 1 the host's own envelope leaves interface 1. |
| `Scenarios.FullQueueLosesFrame` | network3.py:246-248 | A full out-queue loses the frame and leaves the router unchanged. |
| `Scenarios.MissingForwardEntryFails` | network3.py:236 | A label with no forwarding entry ends the pass with ForwardMiss. |
| `Scenarios.BareAddressKeyMisses` | network3.py:221 | A table keyed by the unpadded source "1" misses with EncapMiss. |
| `Scenarios.FullWidthDstMisreadsLabel` | network3.py:207 | Label 7 in front of dst "12345" is read back as 71, and label 0 as 1. |
| `Scenarios.RoundRobinOrder` | network3.py:193-197 | With frames on interfaces 0 and 2 of three, a successful pass handles exactly those two, 0 first. |

## Left out

- Threads and run loops are not modelled. This covers `Host.run`, `Router.run` and the `stop` flags, which are concurrency and polling rather than logic. One `ProcessQueues` call is one pass of the router's loop.
- `print` logging is not modelled, including the hard-coded "to 1" in the forwarding messages. The `__str__` methods are not modelled either; they only feed logging. `parse_dst` is not modelled; nothing in the core calls it.
- `capacity` and `next_avail_time` are not modelled. The source stores them but never reads them.
- The byte format of `LinkFrame` is not modelled. `link3` is not part of this model. Queues hold `LinkFrame(type, data)` values, which assumes its encoding and decoding round-trip.
- Routers.ProcessMplsFrame: the egress puts pass `block=True`, so real Python would wait for room instead of raising `Full`. A sequential model cannot wait. It models the catch-and-drop written around those puts, so a full queue loses the frame.
- Routers.ProcessQueues: on an exception the model returns only the error. It does not return the partly advanced router, with earlier interfaces' frames already moved. Python's thread dies at that point.
- Routers.LabelValue: `int()` is modelled on ASCII digit strings only. Signs, surrounding whitespace, underscores and non-ASCII digits, which Python also accepts, are modelled as errors.
- Routers.RelabelField: same restriction of `int()` to ASCII digit strings.
- Table values are modelled as non-negative: labels and interface indices are `nat` and flags are `int`. Python's wrap-around for a negative list index is not modelled.
- Python values that the codecs only pass through `str()` are held as strings. These are dst, src and the packet priority.
- Hosts.UdtSend: the host address is a string. With an int address, as the comment at line 122 describes, the `%s` formatting at line 138 calls `Host.__str__`, which returns a non-string, so Python raises TypeError before anything is queued. The priority is an int; a non-numeric priority makes the `%d` at line 138 raise TypeError. Neither error is modelled.
- Hosts.UdtReceive: assumes assertions are enabled. Under `python -O` the type check at line 152 would be skipped. When the assertion fails, the model returns only the error; in Python the frame has already been taken from the in-queue.
- Hosts.SentPacketDecodes, Lifecycle.HostFrameKey, Lifecycle.DecapHopPassesHostFrame, Lifecycle.ReceivedPacketDecodes, Lifecycle.SendRouteReceive: stated for a dst of at most 5 unsigned characters with no '0' at either end and an address of at most 2 characters. Outside that range the source alters the packet: a dst such as "10" comes back as "1" because both ends are stripped, and a 3-character address such as "123" pushes its last character into the priority slot.
- Lifecycle.MplsHopShiftsPayload: stated for one-digit labels. A router emits a two-digit label when its table holds one. The next router then reads the label from both digits, and the packet decode starts at the second label digit. That hop is not stated as a lemma.
- The transport that moves frames from one interface's out-queue to a neighbour's in-queue is not modelled. It is outside `network3.py`.

=== FILE: hosts.dfy ===
/** `Host`: the endpoint that turns application data into a "Network" envelope on
    its single interface and drains that interface's inbound queue. */
module Hosts {
  import opened Results
  import opened PyStr
  import opened Links
  import opened Interfaces
  import opened Packets

  /** `addr` holds `str()` of the host's address. */
  datatype Host = Host(addr: string, intf: Interface)

  /** `Host(addr)`: one interface whose queues are empty and unbounded (bound 0). */
  function NewHost(addr: string): (h: Host)
    ensures h.addr == addr && h.intf.inQueue.items == [] && h.intf.outQueue.items == []
    ensures h.intf.inQueue.maxSize == 0 && h.intf.outQueue.maxSize == 0
    ensures !h.intf.outQueue.IsFull() && !h.intf.inQueue.IsFull()
  {
    Host(addr, NewInterface(0))
  }

  /** The envelope `udt_send` queues for a host with address `addr`. */
  function HostFrame(addr: string, dst: string, dataS: string): LinkFrame {
    LinkFrame(NetworkType, ToByteS(NetworkPacket(dst, addr, dataS, DefaultPriority)))
  }

  /** `udt_send(dst, data_S, priority)`: queues a "Network" envelope holding a packet
      from this host's address. The `priority` argument, an int, is only printed; the
      packet keeps the default priority. The put does not block, so a full out-queue
      raises. */
  function UdtSend(h: Host, dst: string, dataS: string, priority: int): (r: Result<Host, QueueFull>)
    ensures r.Failure? <==> h.intf.outQueue.IsFull()
    ensures r.Success? && h.intf.Valid() ==> r.value.intf.Valid()
    ensures r.Success? ==>
      && r.value.addr == h.addr
      && r.value.intf.inQueue == h.intf.inQueue
      && r.value.intf.outQueue.maxSize == h.intf.outQueue.maxSize
      && r.value.intf.outQueue.items == h.intf.outQueue.items + [HostFrame(h.addr, dst, dataS)]
  {
    var pkt := NetworkPacket(dst, h.addr, dataS, DefaultPriority);
    match Put(h.intf, LinkFrame(NetworkType, ToByteS(pkt)), "out")
    case Failure(e) => Failure(e)
    case Success(intf) => Success(h.(intf := intf))
  }

  /** Whatever priority is asked for, the queued packet decodes with priority "0",
      with the payload intact, the host's address as the padded src, and the dst
      back when it fits and has no edge '0'. */
  lemma SentPacketDecodes(h: Host, dst: string, dataS: string, priority: int)
    requires UdtSend(h, dst, dataS, priority).Success?
    requires |dst| <= DstLength && !SignPrefixed(dst) && NoEdgeZero(dst) && |h.addr| <= SrcLength
    ensures var q := UdtSend(h, dst, dataS, priority).value.intf.outQueue.items;
      FromByteS(q[|q| - 1].dataS) == NetworkPacket(dst, ZFill(h.addr, SrcLength), dataS, DefaultPriority)
  {
    PacketRoundTrip(NetworkPacket(dst, h.addr, dataS, DefaultPriority));
    DstRoundTrip(dst);
  }

  /** The `AssertionError` of a host given a non-"Network" envelope. */
  datatype HostError = NotNetwork(typeS: string)

  /** The host after a poll and the packet string it delivered, if any. */
  datatype Received = Received(host: Host, dataS: Option<string>)

  /** `udt_receive`: a non-blocking get on the in-queue; nothing waiting is a no-op,
      a "Network" envelope delivers its payload, anything else fails the assertion. */
  function UdtReceive(h: Host): (r: Result<Received, HostError>)
    ensures h.intf.inQueue.items == [] ==> r == Success(Received(h, None))
    ensures h.intf.inQueue.items != [] ==>
      var fr := h.intf.inQueue.items[0];
      && (r.Failure? <==> fr.typeS != NetworkType)
      && (r.Failure? ==> r.error == NotNetwork(fr.typeS))
      && (r.Success? ==>
            && r.value.dataS == Some(fr.dataS)
            && r.value.host.addr == h.addr
            && r.value.host.intf.outQueue == h.intf.outQueue
            && r.value.host.intf.inQueue.items == h.intf.inQueue.items[1..]
            && r.value.host.intf.inQueue.maxSize == h.intf.inQueue.maxSize)
    ensures r.Success? && h.intf.Valid() ==> r.value.host.intf.Valid()
  {
    var polled := Get(h.intf, "in");
    match polled.frame
    case None => Success(Received(h, None))
    case Some(fr) =>
      if fr.typeS == NetworkType then Success(Received(h.(intf := polled.intf), Some(fr.dataS)))
      else Failure(NotNetwork(fr.typeS))
  }
}

=== FILE: interfaces.dfy ===
/** `Interface`: one link attachment, a pair of FIFO queues (inbound and outbound)
    of link frames, each bounded by the same maximum size. */
module Interfaces {
  import opened Results
  import opened PyStr
  import opened Links

  /** A `queue.Queue(maxSize)`: `items[0]` is the next one out; `maxSize == 0`
      means unbounded. */
  datatype Fifo<T> = Fifo(items: seq<T>, maxSize: nat) {

    /** `Queue.full()`: a positive bound that has been reached. */
    predicate IsFull() {
      0 < maxSize <= |items|
    }

    /** A bounded queue never holds more than its bound. */
    predicate Valid() {
      maxSize == 0 || |items| <= maxSize
    }
  }

  /** The `queue.Full` exception of a non-blocking put. */
  datatype QueueFull = QueueFull

  datatype Taken<T> = Taken(item: T, rest: Fifo<T>)

  /** `Queue.get(False)`: the oldest item and the queue without it, or `None`
      (the `queue.Empty` exception) when there is nothing to take. */
  function Dequeue<T>(q: Fifo<T>): (r: Option<Taken<T>>)
    ensures r.None? <==> q.items == []
    ensures r.Some? ==> [r.value.item] + r.value.rest.items == q.items
    ensures r.Some? ==> r.value.rest.maxSize == q.maxSize
  {
    if q.items == [] then None else Some(Taken(q.items[0], Fifo(q.items[1..], q.maxSize)))
  }

  /** `Queue.put(x, False)`: appends at the back, or raises `Full` and leaves the
      queue as it was when a positive bound has been reached. */
  function Enqueue<T>(q: Fifo<T>, x: T): (r: Result<Fifo<T>, QueueFull>)
    ensures r.Failure? <==> q.IsFull()
    ensures r.Success? ==> r.value.items == q.items + [x] && r.value.maxSize == q.maxSize
    ensures q.Valid() && r.Success? ==> r.value.Valid()
  {
    if q.IsFull() then Failure(QueueFull) else Success(Fifo(q.items + [x], q.maxSize))
  }

  /** Non-blocking puts of `xs` in order, stopping at the first `Full`. */
  function EnqueueAll<T>(q: Fifo<T>, xs: seq<T>): Result<Fifo<T>, QueueFull>
    decreases |xs|
  {
    if xs == [] then Success(q)
    else match Enqueue(q, xs[0])
      case Failure(e) => Failure(e)
      case Success(q') => EnqueueAll(q', xs[1..])
  }

  /** Non-blocking gets until the queue is empty, in the order they return. */
  function DrainAll<T>(q: Fifo<T>): seq<T>
    decreases |q.items|
  {
    match Dequeue(q)
    case None => []
    case Some(t) => [t.item] + DrainAll(t.rest)
  }

  /** Gets return the items in the order they sit in the queue. */
  lemma {:induction false} DrainAllIsItems<T>(q: Fifo<T>)
    ensures DrainAll(q) == q.items
    decreases |q.items|
  {
    match Dequeue(q)
    case None =>
    case Some(t) =>
      DrainAllIsItems(t.rest);
  }

  /** Puts that fit append in order. */
  lemma {:induction false} EnqueueAllAppends<T>(q: Fifo<T>, xs: seq<T>)
    requires q.maxSize == 0 || |q.items| + |xs| <= q.maxSize
    ensures EnqueueAll(q, xs).Success?
    ensures EnqueueAll(q, xs).value == Fifo(q.items + xs, q.maxSize)
    decreases |xs|
  {
    if xs != [] {
      var q' := Fifo(q.items + [xs[0]], q.maxSize);
      assert Enqueue(q, xs[0]) == Success(q');
      EnqueueAllAppends(q', xs[1..]);
      assert q'.items + xs[1..] == q.items + xs;
    }
  }

  /** FIFO: whatever fits is put in and then taken out in the same order, after
      what was already queued. */
  lemma FifoOrder<T>(q: Fifo<T>, xs: seq<T>)
    requires q.maxSize == 0 || |q.items| + |xs| <= q.maxSize
    ensures EnqueueAll(q, xs).Success?
    ensures DrainAll(EnqueueAll(q, xs).value) == q.items + xs
  {
    EnqueueAllAppends(q, xs);
    DrainAllIsItems(EnqueueAll(q, xs).value);
  }

  /** One link attachment. Its `capacity` and `next_avail_time` are stored by the
      source but never read, so they are not part of the state. */
  datatype Interface = Interface(inQueue: Fifo<LinkFrame>, outQueue: Fifo<LinkFrame>) {

    /** Both queues within their bounds. */
    predicate Valid() {
      inQueue.Valid() && outQueue.Valid()
    }
  }

  /** `Interface(maxsize)`: two empty queues with the same bound. */
  function NewInterface(maxSize: nat): (r: Interface)
    ensures r.inQueue.items == [] && r.outQueue.items == []
    ensures r.inQueue.maxSize == maxSize && r.outQueue.maxSize == maxSize
    ensures r.Valid()
  {
    Interface(Fifo([], maxSize), Fifo([], maxSize))
  }

  datatype Polled = Polled(frame: Option<LinkFrame>, intf: Interface)

  /** `q` gave up its head as `frame`, leaving `q'`; or was empty, `frame` is
      `None` and nothing changed. */
  predicate PolledFrom(q: Fifo<LinkFrame>, frame: Option<LinkFrame>, q': Fifo<LinkFrame>) {
    if q.items == [] then frame.None? && q' == q
    else frame == Some(q.items[0]) && q'.items == q.items[1..] && q'.maxSize == q.maxSize
  }

  /** `Interface.get(in_or_out)`: polls the inbound queue for "in" and the outbound
      queue for anything else, without blocking. */
  function Get(intf: Interface, inOrOut: string): (r: Polled)
    ensures inOrOut == "in" ==> r.intf.outQueue == intf.outQueue && PolledFrom(intf.inQueue, r.frame, r.intf.inQueue)
    ensures inOrOut != "in" ==> r.intf.inQueue == intf.inQueue && PolledFrom(intf.outQueue, r.frame, r.intf.outQueue)
    ensures intf.Valid() ==> r.intf.Valid()
  {
    if inOrOut == "in" then
      match Dequeue(intf.inQueue)
      case None => Polled(None, intf)
      case Some(t) => Polled(Some(t.item), intf.(inQueue := t.rest))
    else
      match Dequeue(intf.outQueue)
      case None => Polled(None, intf)
      case Some(t) => Polled(Some(t.item), intf.(outQueue := t.rest))
  }

  /** `Interface.put(pkt, in_or_out)` without blocking: appends to the outbound
      queue for "out" and to the inbound queue for anything else; `Full` leaves
      both queues as they were. */
  function Put(intf: Interface, frame: LinkFrame, inOrOut: string): (r: Result<Interface, QueueFull>)
    ensures inOrOut == "out" ==> (r.Failure? <==> intf.outQueue.IsFull())
    ensures inOrOut != "out" ==> (r.Failure? <==> intf.inQueue.IsFull())
    ensures r.Success? && inOrOut == "out" ==>
      r.value.inQueue == intf.inQueue && r.value.outQueue == Fifo(intf.outQueue.items + [frame], intf.outQueue.maxSize)
    ensures r.Success? && inOrOut != "out" ==>
      r.value.outQueue == intf.outQueue && r.value.inQueue == Fifo(intf.inQueue.items + [frame], intf.inQueue.maxSize)
    ensures intf.Valid() && r.Success? ==> r.value.Valid()
  {
    if inOrOut == "out" then
      match Enqueue(intf.outQueue, frame)
      case Failure(e) => Failure(e)
      case Success(q) => Success(intf.(outQueue := q))
    else
      match Enqueue(intf.inQueue, frame)
      case Failure(e) => Failure(e)
      case Success(q) => Success(intf.(inQueue := q))
  }
}

=== FILE: lifecycle.dfy ===
/** The packet lifecycle across the core: a host's frame entering a router, and an
    MPLS frame crossing one more label-switched hop. */
module Lifecycle {
  import opened Results
  import opened PyStr
  import opened Links
  import opened Interfaces
  import opened Packets
  import opened Routers
  import opened Hosts

  /** A router looks a host's frame up under the host address as its zero-padded
      2-character field, so a table keyed by the bare address "1" misses. */
  lemma HostFrameKey(r: Router, addr: string, dst: string, dataS: string, i: nat)
    requires |addr| <= SrcLength && |dst| <= DstLength && !SignPrefixed(dst) && NoEdgeZero(dst)
    ensures KeyOf(FromByteS(HostFrame(addr, dst, dataS).dataS)) == FlowKey(ZFill(addr, SrcLength), dst, DefaultPriority)
    ensures FlowKey(ZFill(addr, SrcLength), dst, DefaultPriority) !in r.tables.encap ==>
      ProcessFrame(r, HostFrame(addr, dst, dataS), i) == Failure(EncapMiss(FlowKey(ZFill(addr, SrcLength), dst, DefaultPriority)))
  {
    PacketRoundTrip(NetworkPacket(dst, addr, dataS, DefaultPriority));
    DstRoundTrip(dst);
  }

  /** A router whose tables send a host's frame to an interface with a non-zero
      decapsulation flag emits the host's envelope unchanged, byte for byte. */
  lemma DecapHopPassesHostFrame(r: Router, addr: string, dst: string, dataS: string, i: nat)
    requires |addr| <= SrcLength && |dst| <= DstLength && !SignPrefixed(dst) && NoEdgeZero(dst)
    requires var key := FlowKey(ZFill(addr, SrcLength), dst, DefaultPriority);
      && key in r.tables.encap
      && Routable(r.tables, |r.intfs|, r.tables.encap[key])
      && r.tables.decap[r.tables.frwd[r.tables.encap[key]]] != 0
    ensures var res := ProcessFrame(r, HostFrame(addr, dst, dataS), i);
      var key := FlowKey(ZFill(addr, SrcLength), dst, DefaultPriority);
      && res.Success?
      && res.value.event.outIntf == r.tables.frwd[r.tables.encap[key]]
      && res.value.event.frame == HostFrame(addr, dst, dataS)
  {
    var p := NetworkPacket(dst, addr, dataS, DefaultPriority);
    PacketRoundTrip(p);
    DstRoundTrip(dst);
    var q := FromByteS(ToByteS(p));
    assert q == NetworkPacket(dst, ZFill(addr, SrcLength), dataS, DefaultPriority);
    assert ToByteS(q) == ToByteS(p);
  }

  /** The label the next router reads from an MPLS envelope with one-digit label `n`:
      the first two characters, which are the label and the first character of the
      padded dst, with '0' stripped from both ends. A dst shorter than 5 is padded
      with '0', so the label comes back (label 0 cannot be read); a full-width dst
      has its first character read as a second digit of the label. */
  function HopLabel(p: NetworkPacket, n: nat): Result<nat, RouterError>
    requires n <= 9 && |p.dst| <= DstLength
  {
    if |p.dst| < DstLength then
      if n == 0 then Failure(BadLabel("")) else Success(n)
    else if IsDigit(p.dst[0]) then Success(10 * n + DigitValue(p.dst[0]))
    else Failure(BadLabel(if n == 0 then [p.dst[0]] else [DigitChar(n), p.dst[0]]))
  }

  /** An MPLS envelope with a one-digit label, as a router emits it when the flag is
      0, crossing the next router. The label read is `HopLabel`: an unreadable label
      ends the pass with its error. Otherwise the frame is forwarded on that label,
      and the first payload character is decoded as the priority. Sent on as MPLS,
      the frame carries the label read and has lost that character; decapsulated, the
      character becomes the priority field of the Network packet, so the emitted
      bytes are the MPLS bytes without the label. */
  lemma MplsHopShiftsPayload(r: Router, p: NetworkPacket, n: nat, i: nat)
    requires n <= 9
    requires |p.dst| <= DstLength && !SignPrefixed(p.dst) && NoEdgeZero(p.dst)
    requires |p.src| <= SrcLength && |p.dataS| >= 1
    ensures var res := ProcessFrame(r, LinkFrame(MplsType, MplsToByteS(MPLSFrame(p, Num(n)))), i);
      var l := HopLabel(p, n);
      l.Failure? ==> res == Failure(l.error)
    ensures var res := ProcessFrame(r, LinkFrame(MplsType, MplsToByteS(MPLSFrame(p, Num(n)))), i);
      var l := HopLabel(p, n);
      var body := ZFill(p.dst, DstLength) + ZFill(p.src, SrcLength);
      l.Success? && Routable(r.tables, |r.intfs|, l.value) ==>
        var out := r.tables.frwd[l.value];
        && res.Success?
        && res.value.event.outIntf == out
        && res.value.event.frame ==
             (if r.tables.decap[out] == 0
              then LinkFrame(MplsType, NatToString(l.value) + body + p.dataS[1..])
              else LinkFrame(NetworkType, body + p.dataS))
  {
    var fr := LinkFrame(MplsType, MplsToByteS(MPLSFrame(p, Num(n))));
    HopRelabels(p, n);
    var l := HopLabel(p, n);
    if l.Success? && Routable(r.tables, |r.intfs|, l.value) {
      var v := l.value;
      var m := Shifted(p, v);
      HopDecodes(p, n, v);
      assert ProcessFrame(r, fr, i) == ProcessMplsFrame(r, m, i);
      HopReencodes(p, v);
    }
  }

  /** The next router reads `HopLabel` from an MPLS envelope with a one-digit label. */
  lemma HopRelabels(p: NetworkPacket, n: nat)
    requires n <= 9
    requires |p.dst| <= DstLength && !SignPrefixed(p.dst) && NoEdgeZero(p.dst)
    ensures RelabelField(MplsToByteS(MPLSFrame(p, Num(n)))) == HopLabel(p, n)
  {
    var rest := ZFill(p.dst, DstLength) + ZFill(p.src, SrcLength) + p.dataS;
    MplsBytesSplit(p, n);
    PaddedDstHead(p);
    RelabelOneDigit(n, rest);
  }

  /** The MPLS encoding is the label text followed by the packet fields. */
  lemma MplsBytesSplit(p: NetworkPacket, n: nat)
    ensures MplsToByteS(MPLSFrame(p, Num(n))) ==
      NatToString(n) + (ZFill(p.dst, DstLength) + ZFill(p.src, SrcLength) + p.dataS)
  {
  }

  /** The padded dst field starts with a padding '0' when dst is short, and with the
      dst's own first character, never '0', when dst fills the field. */
  lemma PaddedDstHead(p: NetworkPacket)
    requires |p.dst| <= DstLength && !SignPrefixed(p.dst) && NoEdgeZero(p.dst)
    ensures var rest := ZFill(p.dst, DstLength) + ZFill(p.src, SrcLength) + p.dataS;
      && |rest| > 0
      && rest[0] == (if |p.dst| < DstLength then '0' else p.dst[0])
      && (|p.dst| == DstLength ==> p.dst[0] != '0')
  {
    var f := ZFill(p.dst, DstLength);
    ZFillShape(p.dst, DstLength);
    if |p.dst| < DstLength {
      assert Zeros(DstLength - |p.dst|)[0] == '0';
      assert f[0] == '0';
    } else {
      assert f == p.dst;
    }
  }

  /** Decoding with the re-read label `v` skips the one-character label `n` and reads
      the first payload character as the priority. */
  lemma HopDecodes(p: NetworkPacket, n: nat, v: nat)
    requires n <= 9
    requires |p.dst| <= DstLength && !SignPrefixed(p.dst) && NoEdgeZero(p.dst)
    requires |p.src| <= SrcLength && |p.dataS| >= 1
    ensures MplsFromByteS(MplsToByteS(MPLSFrame(p, Num(n))), Some(Num(v))) == Shifted(p, v)
  {
    MplsDecodeShiftsPayload(MPLSFrame(p, Num(n)), Some(Num(v)));
  }

  /** The relabelled frame carries the shifted packet under label `n`. */
  function Shifted(p: NetworkPacket, n: nat): MPLSFrame
    requires |p.dataS| >= 1
  {
    MPLSFrame(NetworkPacket(p.dst, ZFill(p.src, SrcLength), p.dataS[1..], p.dataS[..1]), Num(n))
  }

  lemma HopReencodes(p: NetworkPacket, n: nat)
    requires |p.src| <= SrcLength && |p.dataS| >= 1
    ensures var body := ZFill(p.dst, DstLength) + ZFill(p.src, SrcLength);
      && MplsToByteS(Shifted(p, n)) == NatToString(n) + body + p.dataS[1..]
      && ToPktByteS(Shifted(p, n)) == body + p.dataS
  {
    HopReencodesMpls(p, n);
    HopReencodesPkt(p, n);
  }

  lemma HopReencodesMpls(p: NetworkPacket, n: nat)
    requires |p.src| <= SrcLength && |p.dataS| >= 1
    ensures MplsToByteS(Shifted(p, n)) ==
      NatToString(n) + (ZFill(p.dst, DstLength) + ZFill(p.src, SrcLength)) + p.dataS[1..]
  {
    var c := ZFill(p.src, SrcLength);
    assert ZFill(c, SrcLength) == c;
  }

  lemma HopReencodesPkt(p: NetworkPacket, n: nat)
    requires |p.src| <= SrcLength && |p.dataS| >= 1
    ensures ToPktByteS(Shifted(p, n)) == ZFill(p.dst, DstLength) + ZFill(p.src, SrcLength) + p.dataS
  {
  }

  /** Encoding a packet whose priority is the first payload character gives the same
      characters as padding the ids in front of the whole payload. */
  lemma PriorityFromPayload(dst: string, src: string, d: string)
    requires |d| >= 1
    ensures ToByteS(NetworkPacket(dst, src, d[1..], d[..1])) == ZFill(dst, DstLength) + ZFill(src, SrcLength) + d
  {
  }

  /** A host given a host's envelope delivers bytes that decode to the packet that
      was sent: the dst back when it fits and has no edge '0', the sender's padded
      address, the payload and priority "0". */
  lemma ReceivedPacketDecodes(h: Host, addr: string, dst: string, dataS: string)
    requires h.intf.inQueue.items != [] && h.intf.inQueue.items[0] == HostFrame(addr, dst, dataS)
    requires |addr| <= SrcLength && |dst| <= DstLength && !SignPrefixed(dst) && NoEdgeZero(dst)
    ensures UdtReceive(h).Success? && UdtReceive(h).value.dataS.Some?
    ensures FromByteS(UdtReceive(h).value.dataS.value) ==
      NetworkPacket(dst, ZFill(addr, SrcLength), dataS, DefaultPriority)
  {
    PacketRoundTrip(NetworkPacket(dst, addr, dataS, DefaultPriority));
    DstRoundTrip(dst);
  }

  /** From send to receive across one decapsulating router: the envelope `udt_send`
      queues is routed on a flow whose interface has a non-zero flag, and the frame the
      router emits, put on the in-queue of a new host, is delivered as the sent packet
      from the sender's padded address. */
  lemma SendRouteReceive(s: Host, r: Router, recvAddr: string, dst: string, dataS: string, priority: int, i: nat)
    requires UdtSend(s, dst, dataS, priority).Success?
    requires |s.addr| <= SrcLength && |dst| <= DstLength && !SignPrefixed(dst) && NoEdgeZero(dst)
    requires var key := FlowKey(ZFill(s.addr, SrcLength), dst, DefaultPriority);
      && key in r.tables.encap
      && Routable(r.tables, |r.intfs|, r.tables.encap[key])
      && r.tables.decap[r.tables.frwd[r.tables.encap[key]]] != 0
    ensures var sent := UdtSend(s, dst, dataS, priority).value.intf.outQueue.items;
      var res := ProcessFrame(r, sent[|sent| - 1], i);
      && res.Success?
      && Put(NewHost(recvAddr).intf, res.value.event.frame, "in").Success?
      && var h := NewHost(recvAddr).(intf := Put(NewHost(recvAddr).intf, res.value.event.frame, "in").value);
         && UdtReceive(h).Success? && UdtReceive(h).value.dataS.Some?
         && FromByteS(UdtReceive(h).value.dataS.value) ==
              NetworkPacket(dst, ZFill(s.addr, SrcLength), dataS, DefaultPriority)
  {
    var sent := UdtSend(s, dst, dataS, priority).value.intf.outQueue.items;
    assert sent[|sent| - 1] == HostFrame(s.addr, dst, dataS);
    DecapHopPassesHostFrame(r, s.addr, dst, dataS, i);
    var fr := ProcessFrame(r, sent[|sent| - 1], i).value.event.frame;
    var put := Put(NewHost(recvAddr).intf, fr, "in");
    assert put.Success?;
    var h := NewHost(recvAddr).(intf := put.value);
    assert h.intf.inQueue.items == [fr];
    ReceivedPacketDecodes(h, s.addr, dst, dataS);
  }

}

=== FILE: links.dfy ===
/** The link-layer envelope. Its byte format lives in `link3`, which is not part of
    this model; all the network layer relies on is that a frame is a type tag plus a
    payload string and that encoding a frame and decoding it again gives the same frame.
    Queues therefore hold `LinkFrame` values directly. */
module Links {

  /** A typed envelope: `typeS` is "Network" or "MPLS" for well-formed traffic. */
  datatype LinkFrame = LinkFrame(typeS: string, dataS: string)

  const NetworkType: string := "Network"
  const MplsType: string := "MPLS"
}

=== FILE: packets.dfy ===
/** `NetworkPacket` and `MPLSFrame` and their textual wire codecs. Every field holds
    `str()` of the Python value, since that is all the codecs ever use of it. */
module Packets {
  import opened Results
  import opened PyStr

  /** Field widths of the packet encoding. */
  const DstLength: nat := 5
  const SrcLength: nat := 2
  const PriorityLength: nat := 1
  const HeaderLength: nat := DstLength + SrcLength + PriorityLength

  /** `udt_send` never passes a priority to the packet, so it keeps the default 0. */
  const DefaultPriority: string := "0"

  datatype NetworkPacket = NetworkPacket(dst: string, src: string, dataS: string, priority: string)

  /** The ids fit their fixed-width fields and the priority is one character. */
  predicate Fits(p: NetworkPacket) {
    |p.dst| <= DstLength && |p.src| <= SrcLength && |p.priority| == PriorityLength
  }

  /** `NetworkPacket.to_byte_S`: dst zero-padded to 5, src zero-padded to 2, the
      priority, then the payload. Padding never truncates a longer id. */
  function ToByteS(p: NetworkPacket): (r: string)
    ensures |r| == Max(|p.dst|, DstLength) + Max(|p.src|, SrcLength) + |p.priority| + |p.dataS|
    ensures Fits(p) ==> |r| == HeaderLength + |p.dataS|
  {
    ZFill(p.dst, DstLength) + ZFill(p.src, SrcLength) + p.priority + p.dataS
  }

  /** The layout of an encoded packet whose fields fit: dst left-padded with '0' to
      5 characters, src to 2, the priority character, then the payload. */
  lemma PacketLayout(p: NetworkPacket)
    requires Fits(p) && !SignPrefixed(p.dst) && !SignPrefixed(p.src)
    ensures var r := ToByteS(p);
      && r[..DstLength] == Zeros(DstLength - |p.dst|) + p.dst
      && r[DstLength..DstLength + SrcLength] == Zeros(SrcLength - |p.src|) + p.src
      && r[DstLength + SrcLength..HeaderLength] == p.priority
      && r[HeaderLength..] == p.dataS
  {
    PacketFields(p);
    ZFillShape(p.dst, DstLength);
    ZFillShape(p.src, SrcLength);
  }

  /** The four fields of an encoded fitting packet, as padded by `ZFill`. */
  lemma PacketFields(p: NetworkPacket)
    requires Fits(p)
    ensures var r := ToByteS(p);
      && r[..DstLength] == ZFill(p.dst, DstLength)
      && r[DstLength..DstLength + SrcLength] == ZFill(p.src, SrcLength)
      && r[DstLength + SrcLength..HeaderLength] == p.priority
      && r[HeaderLength..] == p.dataS
  {
    var a, c := ZFill(p.dst, DstLength), ZFill(p.src, SrcLength);
    var r := ToByteS(p);
    var ac := a + c;
    var acp := ac + p.priority;
    assert r == acp + p.dataS;
    assert r[..HeaderLength] == acp;
    assert acp[..DstLength + SrcLength] == ac;
    assert ac[..DstLength] == a;
  }

  /** `NetworkPacket.from_byte_S`: slices the fixed-width fields; the dst field has
      '0' stripped from both ends, the src field is kept padded. */
  function FromByteS(b: string): (r: NetworkPacket)
    ensures |r.dst| <= DstLength && NoEdgeZero(r.dst)
    ensures |b| >= DstLength + SrcLength ==> |r.src| == SrcLength
    ensures |b| >= HeaderLength ==> |r.priority| == PriorityLength
    ensures Drop(b, DstLength) == r.src + r.priority + r.dataS
  {
    var dst := Strip0(Slice(b, 0, DstLength));
    var src := Slice(b, DstLength, DstLength + SrcLength);
    var priority := Slice(b, DstLength + SrcLength, HeaderLength);
    var data := Drop(b, HeaderLength);
    assert Drop(b, DstLength) == src + priority + data;
    NetworkPacket(dst, src, data, priority)
  }

  /** Decoding an encoded packet whose fields fit gives back the payload and the
      priority exactly, src as its padded field and dst with its zeros stripped. */
  lemma PacketRoundTrip(p: NetworkPacket)
    requires Fits(p)
    ensures FromByteS(ToByteS(p)) ==
      NetworkPacket(Strip0(ZFill(p.dst, DstLength)), ZFill(p.src, SrcLength), p.dataS, p.priority)
  {
    var a, c := ZFill(p.dst, DstLength), ZFill(p.src, SrcLength);
    var b := ToByteS(p);
    assert b == a + (c + p.priority + p.dataS);
    assert Slice(b, 0, DstLength) == a;
    assert Drop(b, DstLength) == c + p.priority + p.dataS;
  }

  /** An unsigned dst that fits comes back from the padded field exactly when it has
      no '0' at either end: "0" comes back as "" and "10" as "1". */
  lemma DstRoundTrip(dst: string)
    requires |dst| <= DstLength && !SignPrefixed(dst)
    ensures Strip0(ZFill(dst, DstLength)) == dst <==> NoEdgeZero(dst)
  {
    ZFillShape(dst, DstLength);
    LStripZeros(DstLength - |dst|, dst);
    StripFixedPoint(dst);
  }

  /** A packet with fitting fields and an unsigned dst survives encoding and
      decoding exactly when its dst has no edge '0' and its src fills the field. */
  lemma PacketRoundTripExact(p: NetworkPacket)
    requires Fits(p) && !SignPrefixed(p.dst)
    ensures FromByteS(ToByteS(p)) == p <==> NoEdgeZero(p.dst) && |p.src| == SrcLength
  {
    PacketRoundTrip(p);
    DstRoundTrip(p.dst);
  }

  /** A dst field that encoding can produce: digits, and no trailing '0' unless the
      whole field is zeros. */
  predicate CanonicalDstField(f: string) {
    |f| == DstLength && AllDigits(f) && (f[DstLength - 1] != '0' || f == Zeros(DstLength))
  }

  /** A canonical dst field is what padding its stripped value gives back. */
  lemma CanonicalFieldRoundTrip(f: string)
    requires CanonicalDstField(f)
    ensures ZFill(Strip0(f), DstLength) == f
  {
    var t := LStrip0(f);
    LStripSplit(f);
    var k := |f| - |t|;
    assert f == Zeros(k) + t;
    assert t == f[k..];
    if |t| > 0 {
      assert t[|t| - 1] == f[DstLength - 1];
      assert RStrip0(t) == t;
      assert t[0] == f[k] && IsDigit(f[k]);
    } else {
      assert RStrip0(t) == t;
    }
    assert Strip0(f) == t;
    ZFillShape(t, DstLength);
  }

  /** The other direction: a string with a canonical dst field and a full src field
      is re-encoded to itself. */
  lemma DecodeEncode(b: string)
    requires |b| >= DstLength + SrcLength && CanonicalDstField(b[..DstLength])
    ensures ToByteS(FromByteS(b)) == b
  {
    var f := b[..DstLength];
    var p := FromByteS(b);
    assert Slice(b, 0, DstLength) == f;
    CanonicalFieldRoundTrip(f);
    assert ZFill(p.dst, DstLength) == f;
    assert |p.src| == SrcLength;
    assert ZFill(p.src, SrcLength) == p.src;
    var rest := Drop(b, DstLength);
    assert rest == p.src + p.priority + p.dataS;
    assert ToByteS(p) == f + rest by {
      ConcatAssoc(f, p.src, p.priority, p.dataS);
    }
    assert b == f + rest by {
      assert rest == b[DstLength..];
    }
  }

  lemma ConcatAssoc(a: string, b: string, c: string, d: string)
    ensures a + b + c + d == a + (b + c + d)
  {
  }

  /** An MPLS label as Python holds it: the router stores an int, while decoding
      without an override label stores a string. */
  datatype Label = Num(n: nat) | Text(s: string)

  /** `str(label)` */
  function LabelText(l: Label): string {
    match l
    case Num(n) => NatToString(n)
    case Text(s) => s
  }

  datatype MPLSFrame = MPLSFrame(ipPayload: NetworkPacket, mplsLabel: Label)

  /** `MPLSFrame.to_byte_S`: the label text, then the padded dst and src and the
      payload; there is no priority field. */
  function MplsToByteS(f: MPLSFrame): (r: string)
    ensures |r| == |LabelText(f.mplsLabel)| + Max(|f.ipPayload.dst|, DstLength)
                   + Max(|f.ipPayload.src|, SrcLength) + |f.ipPayload.dataS|
    ensures r[..|LabelText(f.mplsLabel)|] == LabelText(f.mplsLabel)
  {
    LabelText(f.mplsLabel) + ZFill(f.ipPayload.dst, DstLength) + ZFill(f.ipPayload.src, SrcLength) + f.ipPayload.dataS
  }

  /** `MPLSFrame.to_pkt_byte_S`: the wrapped packet's own encoding, which is the
      MPLS encoding with the label taken off and the priority field put back. */
  function ToPktByteS(f: MPLSFrame): (r: string)
    ensures var p := f.ipPayload;
      var k := Max(|p.dst|, DstLength) + Max(|p.src|, SrcLength);
      && k + |p.priority| <= |r|
      && r[k..k + |p.priority|] == p.priority
      && MplsToByteS(f) == LabelText(f.mplsLabel) + r[..k] + r[k + |p.priority|..]
  {
    var p := f.ipPayload;
    var k := Max(|p.dst|, DstLength) + Max(|p.src|, SrcLength);
    var r := ToByteS(p);
    assert r[..k] == ZFill(p.dst, DstLength) + ZFill(p.src, SrcLength);
    assert r[k + |p.priority|..] == p.dataS;
    r
  }

  /** `MPLSFrame.from_byte_S(byte_S, new_label)`: an override label is used as
      given; otherwise the label is the FIRST character with '0' stripped. The
      packet is always decoded from everything after the first character. */
  function MplsFromByteS(b: string, newLabel: Option<Label>): (r: MPLSFrame)
    ensures newLabel.Some? ==> r.mplsLabel == newLabel.value
    ensures newLabel.None? ==> r.mplsLabel.Text? && |r.mplsLabel.s| <= 1
    ensures newLabel.None? ==> (r.mplsLabel.s == "" <==> |b| == 0 || b[0] == '0')
    ensures newLabel.None? && r.mplsLabel.s != "" ==> r.mplsLabel.s == b[..1]
    ensures r.ipPayload == FromByteS(Drop(b, 1))
  {
    var l := if newLabel.None? then Text(Strip0(Slice(b, 0, 1))) else newLabel.value;
    MPLSFrame(FromByteS(Drop(b, 1)), l)
  }

  /** With a one-character label, decoding an MPLS encoding reads the first payload
      character as the priority: the priority is lost and the payload loses its
      first character. */
  lemma MplsDecodeShiftsPayload(f: MPLSFrame, newLabel: Option<Label>)
    requires |LabelText(f.mplsLabel)| == 1
    requires |f.ipPayload.dst| <= DstLength && !SignPrefixed(f.ipPayload.dst) && NoEdgeZero(f.ipPayload.dst)
    requires |f.ipPayload.src| <= SrcLength && |f.ipPayload.dataS| >= 1
    ensures var p := f.ipPayload;
      MplsFromByteS(MplsToByteS(f), newLabel).ipPayload ==
        NetworkPacket(p.dst, ZFill(p.src, SrcLength), p.dataS[1..], p.dataS[..1])
    ensures newLabel.None? ==>
      MplsFromByteS(MplsToByteS(f), newLabel).mplsLabel == Text(Strip0(LabelText(f.mplsLabel)))
  {
    var p := f.ipPayload;
    var shifted := NetworkPacket(p.dst, p.src, p.dataS[1..], p.dataS[..1]);
    var b := MplsToByteS(f);
    assert p.dataS == p.dataS[..1] + p.dataS[1..];
    assert Drop(b, 1) == ToByteS(shifted);
    PacketRoundTrip(shifted);
    DstRoundTrip(p.dst);
    assert Slice(b, 0, 1) == LabelText(f.mplsLabel);
  }
}

=== FILE: pystr.dfy ===
/** The Python string and integer operations the wire codecs are built from:
    slicing, `str.zfill`, `str.strip('0')`, `str(n)` and `int(s)`. */
module PyStr {
  import opened Results

  function Min(a: int, b: int): int { if a <= b then a else b }

  function Max(a: int, b: int): int { if a >= b then a else b }

  /** `s[lo:hi]` for non-negative bounds: both bounds are clamped to `len(s)`, and the
      slice is empty when `lo >= hi`. */
  function Slice(s: string, lo: nat, hi: nat): (r: string)
    ensures lo < hi && lo < |s| ==> r == s[lo..Min(hi, |s|)]
    ensures lo >= hi || lo >= |s| ==> r == ""
  {
    if lo < hi && lo < |s| then s[lo..Min(hi, |s|)] else ""
  }

  /** `s[k:]`: everything after the first `k` elements, empty when there are fewer. */
  function Drop<T>(s: seq<T>, k: nat): (r: seq<T>)
    ensures k <= |s| ==> r == s[k..]
    ensures k >= |s| ==> r == []
  {
    if k <= |s| then s[k..] else []
  }

  /** `'0' * k` */
  function Zeros(k: nat): (r: string)
    ensures |r| == k
  {
    if k == 0 then "" else "0" + Zeros(k - 1)
  }

  /** A leading sign, which `str.zfill` keeps in front of the padding. */
  predicate SignPrefixed(s: string) {
    |s| > 0 && (s[0] == '+' || s[0] == '-')
  }

  /** `s.zfill(width)`: left-pads with '0' up to `width` characters, putting the padding
      after a leading sign; a string already `width` long or longer is returned whole. */
  function ZFill(s: string, width: nat): (r: string)
    ensures |r| == Max(|s|, width)
    ensures |s| >= width ==> r == s
  {
    if |s| >= width then s
    else if SignPrefixed(s) then [s[0]] + Zeros(width - |s|) + s[1..]
    else Zeros(width - |s|) + s
  }

  /** Where `zfill` puts its padding: in front of an unsigned string, after the sign
      of a signed one. */
  lemma ZFillShape(s: string, width: nat)
    ensures var r := ZFill(s, width);
      && (!SignPrefixed(s) ==> r == Zeros(|r| - |s|) + s)
      && (SignPrefixed(s) ==> r == [s[0]] + Zeros(|r| - |s|) + s[1..])
  {
    if |s| >= width {
      assert Zeros(0) + s == s;
      if SignPrefixed(s) {
        assert [s[0]] + Zeros(0) + s[1..] == s;
      }
    }
  }

  /** `s.lstrip('0')` */
  function LStrip0(s: string): (r: string)
    ensures |r| <= |s|
    ensures |r| == 0 || r[0] != '0'
  {
    if |s| > 0 && s[0] == '0' then LStrip0(s[1..]) else s
  }

  /** What `lstrip('0')` removed is a run of zeros. */
  lemma {:induction false} LStripSplit(s: string)
    ensures s == Zeros(|s| - |LStrip0(s)|) + LStrip0(s)
  {
    if |s| > 0 && s[0] == '0' {
      LStripSplit(s[1..]);
      assert s == "0" + s[1..];
    } else {
      assert Zeros(0) + s == s;
    }
  }

  /** `s.rstrip('0')` */
  function RStrip0(s: string): (r: string)
    ensures |r| <= |s|
    ensures r == s[..|r|]
    ensures |r| == 0 || r[|r| - 1] != '0'
  {
    if |s| > 0 && s[|s| - 1] == '0' then RStrip0(s[..|s| - 1]) else s
  }

  /** Neither end of `s` is a '0'. */
  predicate NoEdgeZero(s: string) {
    |s| == 0 || (s[0] != '0' && s[|s| - 1] != '0')
  }

  /** `s.strip('0')`: removes '0' from BOTH ends. */
  function Strip0(s: string): (r: string)
    ensures |r| <= |s|
    ensures NoEdgeZero(r)
  {
    RStrip0(LStrip0(s))
  }

  /** `strip('0')` leaves a string alone exactly when neither end is a '0'. */
  lemma StripFixedPoint(s: string)
    ensures Strip0(s) == s <==> NoEdgeZero(s)
  {
    if NoEdgeZero(s) {
      assert LStrip0(s) == s;
      assert RStrip0(s) == s;
    }
  }

  lemma LStripLeadingZero(u: string)
    ensures LStrip0("0" + u) == LStrip0(u)
  {
    assert ("0" + u)[1..] == u;
  }

  /** Leading zeros are invisible to `lstrip('0')`. */
  lemma {:induction false} LStripZeros(k: nat, s: string)
    ensures LStrip0(Zeros(k) + s) == LStrip0(s)
  {
    if k > 0 {
      var u := Zeros(k - 1) + s;
      assert Zeros(k) + s == "0" + u;
      LStripLeadingZero(u);
      LStripZeros(k - 1, s);
    } else {
      assert Zeros(k) + s == s;
    }
  }

  predicate IsDigit(c: char) { '0' <= c <= '9' }

  predicate AllDigits(s: string) {
    forall k :: 0 <= k < |s| ==> IsDigit(s[k])
  }

  function DigitChar(d: nat): (c: char)
    requires d < 10
    ensures IsDigit(c)
    ensures c as int - '0' as int == d
  {
    ('0' as int + d) as char
  }

  function DigitValue(c: char): (d: nat)
    requires IsDigit(c)
    ensures d < 10
    ensures DigitChar(d) == c
  {
    c as int - '0' as int
  }

  /** `str(n)` for a non-negative int: decimal digits without a leading zero. */
  function NatToString(n: nat): (r: string)
    ensures |r| >= 1 && AllDigits(r)
    ensures r[0] == '0' <==> n == 0
    ensures n < 10 <==> |r| == 1
    ensures 10 <= n < 100 <==> |r| == 2
  {
    if n < 10 then [DigitChar(n)] else NatToString(n / 10) + [DigitChar(n % 10)]
  }

  /** The value of a string of decimal digits; leading zeros are allowed, as in `int()`. */
  function DigitsValue(s: string): nat
    requires AllDigits(s)
  {
    if |s| == 0 then 0 else DigitsValue(s[..|s| - 1]) * 10 + DigitValue(s[|s| - 1])
  }

  /** `int(s)` on strings of ASCII digits; every other string (the empty one included)
      makes `int` raise, which is `None` here. */
  function ParseNat(s: string): (r: Option<nat>)
    ensures r.Some? <==> |s| > 0 && AllDigits(s)
  {
    if |s| > 0 && AllDigits(s) then Some(DigitsValue(s)) else None
  }

  /** `int(str(n)) == n` */
  lemma {:induction false} ParseNatToString(n: nat)
    ensures ParseNat(NatToString(n)) == Some(n)
  {
    var s := NatToString(n);
    if n < 10 {
      assert s[..0] == [];
      assert DigitsValue(s) == DigitValue(s[0]) == n;
    } else {
      ParseNatToString(n / 10);
      assert s[..|s| - 1] == NatToString(n / 10);
      assert DigitsValue(s) == (n / 10) * 10 + n % 10;
    }
  }
}

=== FILE: results.dfy ===
/** Option and Result: the not-present answer of a non-blocking queue poll and the
    exceptions the simulator raises, as values. */
module Results {

  datatype Option<T> = None | Some(value: T)

  datatype Result<T, E> = Success(value: T) | Failure(error: E)

  /** The first present value of `s`: what a sequence of steps that stops at its first
      exception reports. */
  function FirstSome<T>(s: seq<Option<T>>): Option<T> {
    if s == [] then None
    else if FirstSome(s[..|s| - 1]).Some? then FirstSome(s[..|s| - 1])
    else s[|s| - 1]
  }

  /** `FirstSome` finds a value exactly when one is present, and it is the one with
      nothing present before it. */
  lemma {:induction false} FirstSomeSpec<T>(s: seq<Option<T>>)
    ensures FirstSome(s).Some? <==> exists j :: 0 <= j < |s| && s[j].Some?
    ensures FirstSome(s).Some? ==>
      exists j :: 0 <= j < |s| && s[j] == FirstSome(s) && forall k :: 0 <= k < j ==> s[k].None?
  {
    if s != [] {
      var s' := s[..|s| - 1];
      FirstSomeSpec(s');
      if FirstSome(s').Some? {
        var j :| 0 <= j < |s'| && s'[j] == FirstSome(s') && forall k :: 0 <= k < j ==> s'[k].None?;
        assert s[j] == s'[j];
      } else {
        assert forall k :: 0 <= k < |s'| ==> s[k] == s'[k];
      }
    }
  }
}

=== FILE: routers.dfy ===
/** `Router`: a set of interfaces and three read-only tables, and the pass that polls
    every inbound queue once, label-switches what it finds and queues the result for
    egress. */
module Routers {
  import opened Results
  import opened PyStr
  import opened Links
  import opened Interfaces
  import opened Packets

  /** The router re-reads a label from this many leading characters. */
  const LabelLength: nat := 2

  /** A key of the encapsulation table: `(src, dst, priority)` of a decoded packet. */
  datatype FlowKey = FlowKey(src: string, dst: string, priority: string)

  function KeyOf(p: NetworkPacket): FlowKey {
    FlowKey(p.src, p.dst, p.priority)
  }

  /** `encap_tbl_D`, `frwd_tbl_D` and `decap_tbl_D`. */
  datatype Tables = Tables(encap: map<FlowKey, nat>, frwd: map<nat, nat>, decap: map<nat, int>)

  datatype Router = Router(intfs: seq<Interface>, tables: Tables)

  /** The exceptions that escape a pass: the `raise` for an unknown frame type, a
      `ValueError` from `int()`, a `KeyError` from one of the tables and an
      `IndexError` from the interface list. */
  datatype RouterError =
    | UnknownFrameType(typeS: string)
    | BadLabel(text: string)
    | EncapMiss(key: FlowKey)
    | ForwardMiss(labelValue: nat)
    | DecapMiss(outIntf: nat)
    | NoSuchInterface(outIntf: nat)

  /** What became of one frame taken from in-queue `inIntf`: `frame` was appended to
      the out-queue of `outIntf`, or was lost because that queue was full. */
  datatype Event =
    | Forwarded(inIntf: nat, outIntf: nat, frame: LinkFrame)
    | Lost(inIntf: nat, outIntf: nat, frame: LinkFrame)

  datatype Step = Step(router: Router, event: Event)

  datatype Pass = Pass(router: Router, events: seq<Event>)

  /** `Router(name, intf_capacity_L, encap, frwd, decap, max_queue_size)`: one empty
      interface per capacity, all with the same queue bound. */
  function NewRouter(capacities: seq<nat>, tables: Tables, maxQueueSize: nat): (r: Router)
    ensures |r.intfs| == |capacities| && r.tables == tables
    ensures forall j :: 0 <= j < |r.intfs| ==>
      r.intfs[j].inQueue == Fifo([], maxQueueSize) && r.intfs[j].outQueue == Fifo([], maxQueueSize)
  {
    Router(seq(|capacities|, _ => NewInterface(maxQueueSize)), tables)
  }

  /** `int(label)`: an int label is itself; a string label must be all digits. */
  function LabelValue(l: Label): (r: Result<nat, RouterError>)
    ensures l.Num? ==> r == Success(l.n)
    ensures l.Text? ==> (r.Success? <==> |l.s| > 0 && AllDigits(l.s))
    ensures l.Text? && r.Failure? ==> r.error == BadLabel(l.s)
  {
    match l
    case Num(n) => Success(n)
    case Text(s) => if ParseNat(s).Some? then Success(ParseNat(s).value) else Failure(BadLabel(s))
  }

  /** An int label and its `str()` name the same forwarding entry. */
  lemma LabelValueOfText(n: nat)
    ensures LabelValue(Text(LabelText(Num(n)))) == LabelValue(Num(n))
  {
    ParseNatToString(n);
  }

  /** Label `v` has a forwarding entry, whose interface has a decapsulation entry and
      is one of the router's `count` interfaces. */
  predicate Routable(t: Tables, count: nat, v: nat) {
    v in t.frwd && t.frwd[v] in t.decap && t.frwd[v] < count
  }

  /** The egress interface of a label-switched frame, `frwd_tbl_D[int(label)]`, for a
      router with tables `t` and `count` interfaces, in the order the source fails: the
      label, the forwarding entry, the decapsulation entry, then the interface index. */
  function OutInterface(t: Tables, count: nat, m: MPLSFrame): (res: Result<nat, RouterError>)
    ensures res.Success? <==>
      LabelValue(m.mplsLabel).Success? && Routable(t, count, LabelValue(m.mplsLabel).value)
    ensures res.Success? ==> res.value == t.frwd[LabelValue(m.mplsLabel).value]
    ensures LabelValue(m.mplsLabel).Failure? ==> res == Failure(LabelValue(m.mplsLabel).error)
    ensures LabelValue(m.mplsLabel).Success? && LabelValue(m.mplsLabel).value !in t.frwd ==>
      res == Failure(ForwardMiss(LabelValue(m.mplsLabel).value))
    ensures LabelValue(m.mplsLabel).Success? && LabelValue(m.mplsLabel).value in t.frwd ==>
      var out := t.frwd[LabelValue(m.mplsLabel).value];
      && (out !in t.decap ==> res == Failure(DecapMiss(out)))
      && (out in t.decap && out >= count ==> res == Failure(NoSuchInterface(out)))
  {
    match LabelValue(m.mplsLabel)
    case Failure(e) => Failure(e)
    case Success(v) =>
      if v !in t.frwd then Failure(ForwardMiss(v))
      else
        var out := t.frwd[v];
        if out !in t.decap then Failure(DecapMiss(out))
        else if out >= count then Failure(NoSuchInterface(out))
        else Success(out)
  }

  /** The envelope `process_MPLS_frame` sends out of interface `out`: the MPLS
      encoding when the decapsulation flag is 0, the wrapped packet otherwise. */
  function Envelope(t: Tables, out: nat, m: MPLSFrame): (fr: LinkFrame)
    requires out in t.decap
    ensures fr.typeS == MplsType <==> t.decap[out] == 0
    ensures fr.typeS == NetworkType <==> t.decap[out] != 0
  {
    if t.decap[out] == 0 then LinkFrame(MplsType, MplsToByteS(m)) else LinkFrame(NetworkType, ToPktByteS(m))
  }

  /** Every interface of `r` keeps its queues within their bounds. */
  predicate RouterValid(r: Router) {
    forall j :: 0 <= j < |r.intfs| ==> r.intfs[j].Valid()
  }

  /** `s` is `r` after one frame was handled: the tables, every in-queue and every
      out-queue but the event's stay as they were; the event's out-queue grows by the
      event's frame when it is `Forwarded`, and `Lost` happens exactly when that queue
      was full. */
  predicate Applied(r: Router, s: Step) {
    var out := s.event.outIntf;
    && s.router.tables == r.tables
    && |s.router.intfs| == |r.intfs|
    && out < |r.intfs|
    && (forall j :: 0 <= j < |r.intfs| && j != out ==> s.router.intfs[j] == r.intfs[j])
    && s.router.intfs[out].inQueue == r.intfs[out].inQueue
    && s.router.intfs[out].outQueue.maxSize == r.intfs[out].outQueue.maxSize
    && (s.event.Lost? <==> r.intfs[out].outQueue.IsFull())
    && s.router.intfs[out].outQueue.items ==
         r.intfs[out].outQueue.items + (if s.event.Forwarded? then [s.event.frame] else [])
  }

  /** `process_MPLS_frame`: forwards on `frwd_tbl_D[int(label)]`. A decapsulation flag
      of 0 sends the frame on as an "MPLS" envelope, any other flag as a "Network"
      envelope holding the wrapped packet. A full out-queue loses the frame and
      changes nothing. */
  function ProcessMplsFrame(r: Router, m: MPLSFrame, i: nat): (res: Result<Step, RouterError>)
    ensures res.Failure? <==> OutInterface(r.tables, |r.intfs|, m).Failure?
    ensures res.Failure? ==> res.error == OutInterface(r.tables, |r.intfs|, m).error
    ensures res.Success? ==>
      var out := OutInterface(r.tables, |r.intfs|, m).value;
      && Applied(r, res.value)
      && res.value.event.inIntf == i
      && res.value.event.outIntf == out
      && res.value.event.frame ==
           (if r.tables.decap[out] == 0
            then LinkFrame(MplsType, MplsToByteS(m))
            else LinkFrame(NetworkType, ToPktByteS(m)))
    ensures res.Success? && res.value.event.Lost? ==> res.value.router == r
    ensures res.Success? && RouterValid(r) ==> RouterValid(res.value.router)
  {
    match OutInterface(r.tables, |r.intfs|, m)
    case Failure(e) => Failure(e)
    case Success(out) =>
      var fr := Envelope(r.tables, out, m);
      match Put(r.intfs[out], fr, "out")
      case Failure(_) => Success(Step(r, Lost(i, out, fr)))
      case Success(intf) => Success(Step(r.(intfs := r.intfs[out := intf]), Forwarded(i, out, fr)))
  }

  /** `process_network_packet`: labels the packet with `encap_tbl_D[(src, dst, priority)]`
      and forwards it as a label-switched frame. */
  function ProcessNetworkPacket(r: Router, p: NetworkPacket, i: nat): (res: Result<Step, RouterError>)
    ensures KeyOf(p) !in r.tables.encap ==> res == Failure(EncapMiss(KeyOf(p)))
    ensures KeyOf(p) in r.tables.encap ==>
      var l := r.tables.encap[KeyOf(p)];
      res.Success? <==> Routable(r.tables, |r.intfs|, l)
    ensures res.Success? ==>
      var l := r.tables.encap[KeyOf(p)];
      var out := r.tables.frwd[l];
      && Applied(r, res.value)
      && res.value.event.inIntf == i
      && res.value.event.outIntf == out
      && res.value.event.frame ==
           (if r.tables.decap[out] == 0
            then LinkFrame(MplsType, MplsToByteS(MPLSFrame(p, Num(l))))
            else LinkFrame(NetworkType, ToByteS(p)))
  {
    var key := KeyOf(p);
    if key !in r.tables.encap then Failure(EncapMiss(key))
    else ProcessMplsFrame(r, MPLSFrame(p, Num(r.tables.encap[key])), i)
  }

  /** `int(pkt_S[0:2].strip('0'))`: the label re-read from the first two characters
      of an MPLS envelope's payload. */
  function RelabelField(pktS: string): (res: Result<nat, RouterError>)
    ensures res.Success? <==> ParseNat(Strip0(Slice(pktS, 0, LabelLength))).Some?
    ensures res.Success? ==> res.value < 100
  {
    var t := Strip0(Slice(pktS, 0, LabelLength));
    match ParseNat(t)
    case None => Failure(BadLabel(t))
    case Some(v) => assert DigitsValue(t) < 100 by { DigitsValueBound(t); } Success(v)
  }

  /** At most two digits have a value below 100. */
  lemma DigitsValueBound(t: string)
    requires AllDigits(t) && |t| <= 2
    ensures DigitsValue(t) < 100
  {
    if |t| > 0 {
      var u := t[..|t| - 1];
      assert |u| <= 1;
      if |u| == 1 {
        assert u[..0] == [];
      }
    }
  }

  /** What the re-read gives back for a label below 100 written in front of the rest
      of the frame. A two-digit label comes back, except that a trailing 0 is lost
      (20 becomes 2). A one-digit label is read together with the next character: a
      '0' or nothing after it is stripped, so the label comes back, except label 0
      which cannot be read; a non-zero digit after it is read as a second digit (7
      followed by "12345" becomes 71, 0 followed by it becomes 1); anything else
      cannot be read. */
  lemma RelabelRecoversLabel(n: nat, rest: string)
    requires n < 100
    ensures RelabelField(NatToString(n) + rest) ==
      if n >= 10 then
        if n % 10 == 0 then Success(n / 10) else Success(n)
      else if |rest| == 0 || rest[0] == '0' then
        if n == 0 then Failure(BadLabel("")) else Success(n)
      else if IsDigit(rest[0]) then Success(10 * n + DigitValue(rest[0]))
      else Failure(BadLabel(if n == 0 then [rest[0]] else [DigitChar(n), rest[0]]))
  {
    if n < 10 {
      RelabelOneDigit(n, rest);
    } else {
      var b := NatToString(n) + rest;
      var field := Slice(b, 0, LabelLength);
      var hi, lo := DigitChar(n / 10), DigitChar(n % 10);
      assert NatToString(n) == [hi, lo];
      assert field == [hi, lo];
      assert LStrip0(field) == field;
      if n % 10 == 0 {
        assert field[..1] == [hi];
        assert RStrip0(field) == RStrip0(field[..1]) == [hi];
        assert ParseNat([hi]) == Some(n / 10) by { ParseNatToString(n / 10); }
      } else {
        assert RStrip0(field) == field;
        assert ParseNat(field) == Some(n) by { ParseNatToString(n); }
      }
    }
  }

  /** The one-digit cases of `RelabelRecoversLabel`. */
  lemma RelabelOneDigit(n: nat, rest: string)
    requires n < 10
    ensures RelabelField(NatToString(n) + rest) ==
      if |rest| == 0 || rest[0] == '0' then
        if n == 0 then Failure(BadLabel("")) else Success(n)
      else if IsDigit(rest[0]) then Success(10 * n + DigitValue(rest[0]))
      else Failure(BadLabel(if n == 0 then [rest[0]] else [DigitChar(n), rest[0]]))
  {
    var d := DigitChar(n);
    var b := NatToString(n) + rest;
    var field := Slice(b, 0, LabelLength);
    assert NatToString(n) == [d];
    if |rest| == 0 || rest[0] == '0' {
      var f := if |rest| == 0 then [d] else [d, '0'];
      assert field == f;
      if n == 0 {
        assert LStrip0(f) == LStrip0(f[1..]);
        if |rest| > 0 {
          assert LStrip0(f[1..]) == LStrip0(f[2..]);
          assert f[2..] == "";
        } else {
          assert f[1..] == "";
        }
        assert Strip0(field) == "";
      } else {
        assert LStrip0(f) == f;
        assert f[..1] == [d];
        assert RStrip0(f) == [d];
        assert ParseNat([d]) == Some(n) by { ParseNatToString(n); }
      }
    } else {
      var c := rest[0];
      assert field == [d, c];
      var t := if n == 0 then [c] else [d, c];
      if n == 0 {
        assert LStrip0(field) == LStrip0(field[1..]);
        assert field[1..] == [c];
      }
      assert LStrip0(field) == t;
      assert RStrip0(t) == t;
      assert Strip0(field) == t;
      if IsDigit(c) {
        if n == 0 {
          assert t[..0] == [];
          assert DigitsValue(t) == DigitValue(c);
        } else {
          assert t[..1] == [d];
          assert [d][..0] == [];
          assert DigitsValue([d]) == DigitValue(d) == n;
          assert DigitsValue(t) == DigitsValue([d]) * 10 + DigitValue(c);
        }
      } else {
        assert !AllDigits(t);
      }
    }
  }

  /** Where one frame goes and what is sent there. */
  datatype Hop = Hop(outIntf: nat, frame: LinkFrame)

  /** Reference routing of one frame by a router with tables `t` and `count`
      interfaces, decided from the tables alone: the frame type selects the label
      (the encapsulation entry of the decoded packet, or the label re-read from the
      first two characters), the label selects the egress interface, and that
      interface's decapsulation flag selects the envelope. */
  function Route(t: Tables, count: nat, fr: LinkFrame): (res: Result<Hop, RouterError>)
    ensures fr.typeS != NetworkType && fr.typeS != MplsType ==> res == Failure(UnknownFrameType(fr.typeS))
    ensures fr.typeS == NetworkType && KeyOf(FromByteS(fr.dataS)) !in t.encap ==>
      res == Failure(EncapMiss(KeyOf(FromByteS(fr.dataS))))
    ensures fr.typeS == MplsType && RelabelField(fr.dataS).Failure? ==> res == Failure(RelabelField(fr.dataS).error)
    ensures res.Success? ==> res.value.outIntf < count && res.value.outIntf in t.decap
    ensures res.Success? ==> (res.value.frame.typeS == MplsType <==> t.decap[res.value.outIntf] == 0)
  {
    var m :=
      if fr.typeS == NetworkType then
        var p := FromByteS(fr.dataS);
        if KeyOf(p) in t.encap then Success(MPLSFrame(p, Num(t.encap[KeyOf(p)])))
        else Failure(EncapMiss(KeyOf(p)))
      else if fr.typeS == MplsType then
        match RelabelField(fr.dataS)
        case Failure(e) => Failure(e)
        case Success(v) => Success(MplsFromByteS(fr.dataS, Some(Num(v))))
      else Failure(UnknownFrameType(fr.typeS));
    match m
    case Failure(e) => Failure(e)
    case Success(mf) =>
      match OutInterface(t, count, mf)
      case Failure(e) => Failure(e)
      case Success(out) => Success(Hop(out, Envelope(t, out, mf)))
  }

  /** One iteration of the `process_queues` loop body for a frame already taken:
      "Network" frames are labelled through the encapsulation table, "MPLS" frames get
      the label re-read from their first two characters, anything else is fatal. */
  function ProcessFrame(r: Router, fr: LinkFrame, i: nat): (res: Result<Step, RouterError>)
    ensures fr.typeS != NetworkType && fr.typeS != MplsType ==> res == Failure(UnknownFrameType(fr.typeS))
    ensures res.Success? ==> Applied(r, res.value) && res.value.event.inIntf == i
    ensures fr.typeS == NetworkType ==>
      var key := KeyOf(FromByteS(fr.dataS));
      && (key !in r.tables.encap ==> res == Failure(EncapMiss(key)))
      && (res.Success? ==>
            key in r.tables.encap && r.tables.encap[key] in r.tables.frwd
            && res.value.event.outIntf == r.tables.frwd[r.tables.encap[key]])
    ensures fr.typeS == MplsType ==>
      var l := RelabelField(fr.dataS);
      && (l.Failure? ==> res == Failure(l.error))
      && (res.Success? ==>
            l.Success? && l.value in r.tables.frwd && res.value.event.outIntf == r.tables.frwd[l.value])
    ensures res.Failure? <==> Route(r.tables, |r.intfs|, fr).Failure?
    ensures res.Failure? ==> res.error == Route(r.tables, |r.intfs|, fr).error
    ensures res.Success? ==> Hop(res.value.event.outIntf, res.value.event.frame) == Route(r.tables, |r.intfs|, fr).value
    ensures res.Success? && RouterValid(r) ==> RouterValid(res.value.router)
  {
    if fr.typeS == NetworkType then
      ProcessNetworkPacket(r, FromByteS(fr.dataS), i)
    else if fr.typeS == MplsType then
      match RelabelField(fr.dataS)
      case Failure(e) => Failure(e)
      case Success(v) => ProcessMplsFrame(r, MplsFromByteS(fr.dataS, Some(Num(v))), i)
    else
      Failure(UnknownFrameType(fr.typeS))
  }

  /** The exception that routing the head of in-queue `j` raises, if any; an empty
      in-queue raises nothing. */
  function HeadOutcome(r: Router, j: nat): Option<RouterError>
    requires j < |r.intfs|
  {
    if r.intfs[j].inQueue.items == [] then None
    else match Route(r.tables, |r.intfs|, r.intfs[j].inQueue.items[0])
      case Failure(e) => Some(e)
      case Success(_) => None
  }

  /** The frame at the head of in-queue `j` cannot be routed. */
  predicate HeadFails(r: Router, j: nat)
    requires j < |r.intfs|
  {
    HeadOutcome(r, j).Some?
  }

  /** The exception the head of in-queue `j` raises. */
  function HeadError(r: Router, j: nat): RouterError
    requires j < |r.intfs| && HeadFails(r, j)
  {
    HeadOutcome(r, j).value
  }

  /** `e` is what routing the head of in-queue `e.inIntf` of `r` gives: its egress
      interface and envelope; and it is `Lost` only on a bounded out-queue. */
  predicate Routed(r: Router, e: Event) {
    && e.inIntf < |r.intfs|
    && r.intfs[e.inIntf].inQueue.items != []
    && Route(r.tables, |r.intfs|, r.intfs[e.inIntf].inQueue.items[0]) == Success(Hop(e.outIntf, e.frame))
    && (e.Lost? ==> r.intfs[e.outIntf].outQueue.maxSize > 0)
  }

  /** The outcomes of interfaces `0` to `n - 1`, in order. */
  function Outcomes(r: Router, n: nat): (s: seq<Option<RouterError>>)
    requires n <= |r.intfs|
    ensures |s| == n && forall j :: 0 <= j < n ==> s[j] == HeadOutcome(r, j)
  {
    seq(n, j requires 0 <= j < n => HeadOutcome(r, j))
  }

  /** The frames `events` append to the out-queue of interface `j`, in order. */
  function FramesTo(events: seq<Event>, j: nat): seq<LinkFrame> {
    if events == [] then []
    else
      var e := events[|events| - 1];
      FramesTo(events[..|events| - 1], j) + (if e.Forwarded? && e.outIntf == j then [e.frame] else [])
  }

  lemma {:induction false} FramesToAppend(a: seq<Event>, b: seq<Event>, j: nat)
    ensures FramesTo(a + b, j) == FramesTo(a, j) + FramesTo(b, j)
    decreases |b|
  {
    if b == [] {
      assert a + b == a;
    } else {
      var b' := b[..|b| - 1];
      assert (a + b)[..|a + b| - 1] == a + b';
      FramesToAppend(a, b', j);
    }
  }

  /** Out-queue `events[k].outIntf` is full when event `k` of a pass starting from `r`
      reaches it: it holds its frames in `r` and those the earlier events forwarded. */
  predicate FullBefore(r: Router, events: seq<Event>, k: nat)
    requires k < |events| && events[k].outIntf < |r.intfs|
  {
    var o := events[k].outIntf;
    Fifo(r.intfs[o].outQueue.items + FramesTo(events[..k], o), r.intfs[o].outQueue.maxSize).IsFull()
  }

  /** Each event of a pass starting from `r` is `Lost` exactly when its out-queue is
      full at that point of the pass. */
  predicate LostWhenFull(r: Router, events: seq<Event>) {
    forall k :: 0 <= k < |events| ==>
      events[k].outIntf < |r.intfs| && (events[k].Lost? <==> FullBefore(r, events, k))
  }

  /** The in-interfaces of `events`, in order. */
  function InIndices(events: seq<Event>): (r: seq<nat>)
    ensures |r| == |events|
    ensures forall k :: 0 <= k < |events| ==> r[k] == events[k].inIntf
  {
    seq(|events|, k requires 0 <= k < |events| => events[k].inIntf)
  }

  /** Reference order of a pass: the interfaces below `n` whose in-queue holds a
      frame, ascending. */
  function NonEmptyIndices(intfs: seq<Interface>, n: nat): seq<nat>
    requires n <= |intfs|
  {
    if n == 0 then []
    else NonEmptyIndices(intfs, n - 1) + (if intfs[n - 1].inQueue.items != [] then [n - 1] else [])
  }

  /** `NonEmptyIndices` lists each interface with a waiting frame once, in ascending
      order, and nothing else. */
  lemma {:induction false} NonEmptyIndicesSpec(intfs: seq<Interface>, n: nat)
    requires n <= |intfs|
    ensures var s := NonEmptyIndices(intfs, n);
      && (forall a, b :: 0 <= a < b < |s| ==> s[a] < s[b])
      && (forall k :: 0 <= k < |s| ==> s[k] < n)
      && (forall j :: 0 <= j < n ==> (j in s <==> intfs[j].inQueue.items != []))
  {
    if n > 0 {
      NonEmptyIndicesSpec(intfs, n - 1);
    }
  }

  /** `after` is `r` once the in-queues of interfaces `lo` to `hi - 1` have each given
      up their head frame (if any), the other in-queues are untouched, and every
      out-queue has grown by exactly the frames `events` forwarded to it. */
  predicate Advanced(r: Router, after: Router, events: seq<Event>, lo: nat, hi: nat) {
    && after.tables == r.tables
    && |after.intfs| == |r.intfs|
    && forall j :: 0 <= j < |r.intfs| ==>
         && after.intfs[j].inQueue ==
              (if lo <= j < hi then Fifo(Drop(r.intfs[j].inQueue.items, 1), r.intfs[j].inQueue.maxSize)
               else r.intfs[j].inQueue)
         && after.intfs[j].outQueue ==
              Fifo(r.intfs[j].outQueue.items + FramesTo(events, j), r.intfs[j].outQueue.maxSize)
  }

  /** `r` with the head of in-queue `i` taken off. */
  function Dequeued(r: Router, i: nat): Router
    requires i < |r.intfs|
  {
    r.(intfs := r.intfs[i := Get(r.intfs[i], "in").intf])
  }

  /** One `process_queues` iteration: a non-blocking get on in-queue `i`; an empty
      queue is skipped, a frame is handled by `ProcessFrame`. */
  function ProcessInterface(r: Router, i: nat): (res: Result<Pass, RouterError>)
    requires i < |r.intfs|
    ensures r.intfs[i].inQueue.items == [] ==> res == Success(Pass(r, []))
    ensures r.intfs[i].inQueue.items != [] ==>
      (res.Success? <==> ProcessFrame(Dequeued(r, i), r.intfs[i].inQueue.items[0], i).Success?)
    ensures res.Success? ==> Advanced(r, res.value.router, res.value.events, i, i + 1)
    ensures res.Success? ==>
      InIndices(res.value.events) == (if r.intfs[i].inQueue.items != [] then [i] else [])
    ensures res.Failure? <==> HeadFails(r, i)
    ensures res.Failure? ==> res.error == HeadError(r, i)
    ensures res.Success? ==> forall k :: 0 <= k < |res.value.events| ==> Routed(r, res.value.events[k])
    ensures res.Success? ==> LostWhenFull(r, res.value.events)
    ensures res.Success? && RouterValid(r) ==> RouterValid(res.value.router)
  {
    var polled := Get(r.intfs[i], "in");
    match polled.frame
    case None => Success(Pass(r, []))
    case Some(fr) =>
      HeadStep(r, i);
      match ProcessFrame(Dequeued(r, i), fr, i)
      case Failure(e) => Failure(e)
      case Success(s) => Success(Pass(s.router, [s.event]))
  }

  /** Handling the head of in-queue `i`, stated against the router before the get. */
  lemma HeadStep(r: Router, i: nat)
    requires i < |r.intfs| && r.intfs[i].inQueue.items != []
    ensures var res := ProcessFrame(Dequeued(r, i), r.intfs[i].inQueue.items[0], i);
      && (res.Failure? <==> HeadFails(r, i))
      && (res.Failure? ==> res.error == HeadError(r, i))
      && (res.Success? ==> Routed(r, res.value.event) && Advanced(r, res.value.router, [res.value.event], i, i + 1))
      && (res.Success? ==> LostWhenFull(r, [res.value.event]))
      && (res.Success? && RouterValid(r) ==> RouterValid(res.value.router))
  {
    var r1 := Dequeued(r, i);
    assert r1.tables == r.tables && |r1.intfs| == |r.intfs|;
    var res := ProcessFrame(r1, r.intfs[i].inQueue.items[0], i);
    if res.Success? {
      var e := res.value.event;
      assert r1.intfs[e.outIntf].outQueue == r.intfs[e.outIntf].outQueue;
      assert [e][..0] == [] && FramesTo([], e.outIntf) == [];
      assert r.intfs[e.outIntf].outQueue.items + [] == r.intfs[e.outIntf].outQueue.items;
      StepAdvances(r, i, res.value);
      if RouterValid(r) {
        assert r.intfs[i].Valid();
        assert RouterValid(r1);
      }
    }
  }

  /** A frame handled after taking it from in-queue `i` advances the router by one
      interface. */
  lemma StepAdvances(r: Router, i: nat, s: Step)
    requires i < |r.intfs| && r.intfs[i].inQueue.items != []
    requires Applied(Dequeued(r, i), s)
    ensures Advanced(r, s.router, [s.event], i, i + 1)
  {
    var r1 := Dequeued(r, i);
    var e := s.event;
    forall j | 0 <= j < |r.intfs|
      ensures s.router.intfs[j].inQueue ==
                (if i <= j < i + 1 then Fifo(Drop(r.intfs[j].inQueue.items, 1), r.intfs[j].inQueue.maxSize)
                 else r.intfs[j].inQueue)
      ensures s.router.intfs[j].outQueue ==
                Fifo(r.intfs[j].outQueue.items + FramesTo([e], j), r.intfs[j].outQueue.maxSize)
    {
      assert [e][..0] == [];
      assert FramesTo([e], j) == (if e.Forwarded? && e.outIntf == j then [e.frame] else []);
      if j != e.outIntf {
        assert s.router.intfs[j] == r1.intfs[j];
      }
    }
  }

  /** Interfaces `0` to `n - 1` of one `process_queues` pass, in ascending order; the
      first exception ends the pass. */
  function PassUpTo(r: Router, n: nat): (res: Result<Pass, RouterError>)
    requires n <= |r.intfs|
    ensures res.Success? ==> Advanced(r, res.value.router, res.value.events, 0, n)
    ensures res.Success? ==> InIndices(res.value.events) == NonEmptyIndices(r.intfs, n)
    ensures res.Failure? <==> FirstSome(Outcomes(r, n)).Some?
    ensures res.Failure? ==> res.error == FirstSome(Outcomes(r, n)).value
    ensures res.Success? ==> forall k :: 0 <= k < |res.value.events| ==> Routed(r, res.value.events[k])
    ensures res.Success? ==> LostWhenFull(r, res.value.events)
    ensures res.Success? && RouterValid(r) ==> RouterValid(res.value.router)
  {
    if n == 0 then
      assert forall j :: FramesTo([], j) == [];
      Success(Pass(r, []))
    else
      OutcomesStep(r, n);
      match PassUpTo(r, n - 1)
      case Failure(e) => Failure(e)
      case Success(p) =>
        PassStep(r, p, n);
        match ProcessInterface(p.router, n - 1)
        case Failure(e) => Failure(e)
        case Success(q) => Success(Pass(q.router, p.events + q.events))
  }

  /** Interface `n - 1` handled after the first `n - 1`, stated against the router the
      pass started from. */
  lemma PassStep(r: Router, p: Pass, n: nat)
    requires 0 < n <= |r.intfs|
    requires Advanced(r, p.router, p.events, 0, n - 1)
    requires InIndices(p.events) == NonEmptyIndices(r.intfs, n - 1)
    requires forall k :: 0 <= k < |p.events| ==> Routed(r, p.events[k])
    requires LostWhenFull(r, p.events)
    ensures var res := ProcessInterface(p.router, n - 1);
      && (res.Failure? <==> HeadOutcome(r, n - 1).Some?)
      && (res.Failure? ==> res.error == HeadOutcome(r, n - 1).value)
      && (res.Success? ==>
            && Advanced(r, res.value.router, p.events + res.value.events, 0, n)
            && InIndices(p.events + res.value.events) == NonEmptyIndices(r.intfs, n)
            && (forall k :: 0 <= k < |p.events + res.value.events| ==> Routed(r, (p.events + res.value.events)[k]))
            && LostWhenFull(r, p.events + res.value.events))
      && (res.Success? && RouterValid(p.router) ==> RouterValid(res.value.router))
  {
    UntouchedHead(r, p, n);
    var res := ProcessInterface(p.router, n - 1);
    if res.Success? {
      var q := res.value;
      PassCompose(r, p, q, n);
      assert forall k :: 0 <= k < |q.events| ==> q.events[k].inIntf == InIndices(q.events)[k];
      RoutedCompose(r, p, q, n);
      LostCompose(r, p, q, n);
    }
  }

  /** The losses of the first `n - 1` interfaces and of interface `n - 1` add up to
      the losses of the pass over the first `n`: interface `n - 1` sees its out-queue
      as the earlier events left it. */
  lemma LostCompose(r: Router, p: Pass, q: Pass, n: nat)
    requires 0 < n <= |r.intfs|
    requires Advanced(r, p.router, p.events, 0, n - 1)
    requires LostWhenFull(r, p.events)
    requires LostWhenFull(p.router, q.events)
    requires |q.events| <= 1
    ensures LostWhenFull(r, p.events + q.events)
  {
    var all := p.events + q.events;
    forall k | 0 <= k < |all|
      ensures all[k].outIntf < |r.intfs| && (all[k].Lost? <==> FullBefore(r, all, k))
    {
      if k < |p.events| {
        assert all[..k] == p.events[..k];
        assert all[k] == p.events[k];
      } else {
        var e := q.events[0];
        assert all[k] == e && all[..k] == p.events;
        assert q.events[..0] == [] && FramesTo([], e.outIntf) == [];
        assert p.router.intfs[e.outIntf].outQueue.items + [] == p.router.intfs[e.outIntf].outQueue.items;
      }
    }
  }

  /** The outcome of the first `n` interfaces: that of the first `n - 1`, or else
      that of interface `n - 1`. */
  lemma OutcomesStep(r: Router, n: nat)
    requires 0 < n <= |r.intfs|
    ensures FirstSome(Outcomes(r, n)) ==
      if FirstSome(Outcomes(r, n - 1)).Some? then FirstSome(Outcomes(r, n - 1)) else HeadOutcome(r, n - 1)
  {
    assert Outcomes(r, n)[..n - 1] == Outcomes(r, n - 1);
  }

  /** Interfaces below `n - 1` leave in-queue `n - 1`, the tables and every bound as
      they were, so its head routes as it did before the pass. */
  lemma UntouchedHead(r: Router, p: Pass, n: nat)
    requires 0 < n <= |r.intfs|
    requires Advanced(r, p.router, p.events, 0, n - 1)
    ensures p.router.intfs[n - 1].inQueue == r.intfs[n - 1].inQueue
    ensures HeadOutcome(p.router, n - 1) == HeadOutcome(r, n - 1)
  {
  }

  /** Events routed before interface `n - 1` and the event of interface `n - 1` are all
      routed with respect to the router the pass started from. */
  lemma RoutedCompose(r: Router, p: Pass, q: Pass, n: nat)
    requires 0 < n <= |r.intfs|
    requires Advanced(r, p.router, p.events, 0, n - 1)
    requires forall k :: 0 <= k < |p.events| ==> Routed(r, p.events[k])
    requires forall k :: 0 <= k < |q.events| ==> Routed(p.router, q.events[k])
    requires forall k :: 0 <= k < |q.events| ==> q.events[k].inIntf == n - 1
    ensures forall k :: 0 <= k < |p.events + q.events| ==> Routed(r, (p.events + q.events)[k])
  {
    forall k | 0 <= k < |q.events|
      ensures Routed(r, q.events[k])
    {
      var e := q.events[k];
      assert p.router.intfs[n - 1].inQueue == r.intfs[n - 1].inQueue;
      assert Routed(p.router, e);
      assert p.router.intfs[e.outIntf].outQueue.maxSize == r.intfs[e.outIntf].outQueue.maxSize;
    }
  }

  /** The first `n - 1` interfaces followed by interface `n - 1` make the first `n`. */
  lemma PassCompose(r: Router, p: Pass, q: Pass, n: nat)
    requires 0 < n <= |r.intfs|
    requires Advanced(r, p.router, p.events, 0, n - 1)
    requires InIndices(p.events) == NonEmptyIndices(r.intfs, n - 1)
    requires Advanced(p.router, q.router, q.events, n - 1, n)
    requires InIndices(q.events) == (if p.router.intfs[n - 1].inQueue.items != [] then [n - 1] else [])
    ensures Advanced(r, q.router, p.events + q.events, 0, n)
    ensures InIndices(p.events + q.events) == NonEmptyIndices(r.intfs, n)
  {
    OutQueuesCompose(r, p, q, n);
    InIndicesCompose(r, p, q, n);
  }

  /** Out-queues grown by `p.events` and then by `q.events` have grown by both. */
  lemma OutQueuesCompose(r: Router, p: Pass, q: Pass, n: nat)
    requires 0 < n <= |r.intfs|
    requires Advanced(r, p.router, p.events, 0, n - 1)
    requires Advanced(p.router, q.router, q.events, n - 1, n)
    ensures forall j :: 0 <= j < |r.intfs| ==>
      q.router.intfs[j].outQueue ==
        Fifo(r.intfs[j].outQueue.items + FramesTo(p.events + q.events, j), r.intfs[j].outQueue.maxSize)
  {
    forall j | 0 <= j < |r.intfs|
      ensures q.router.intfs[j].outQueue ==
                Fifo(r.intfs[j].outQueue.items + FramesTo(p.events + q.events, j), r.intfs[j].outQueue.maxSize)
    {
      FramesToAppend(p.events, q.events, j);
    }
  }

  /** Visiting the busy interfaces below `n - 1` and then interface `n - 1` if busy
      visits the busy interfaces below `n`. */
  lemma InIndicesCompose(r: Router, p: Pass, q: Pass, n: nat)
    requires 0 < n <= |r.intfs|
    requires Advanced(r, p.router, p.events, 0, n - 1)
    requires InIndices(p.events) == NonEmptyIndices(r.intfs, n - 1)
    requires InIndices(q.events) == (if p.router.intfs[n - 1].inQueue.items != [] then [n - 1] else [])
    ensures InIndices(p.events + q.events) == NonEmptyIndices(r.intfs, n)
  {
    assert p.router.intfs[n - 1].inQueue == r.intfs[n - 1].inQueue;
    assert InIndices(p.events + q.events) == InIndices(p.events) + InIndices(q.events);
  }

  /** `Router.process_queues`: one pass over every interface in ascending order. On
      success each in-queue has given up at most its head frame, each out-queue has
      grown by exactly the frames forwarded to it, the events name exactly the
      interfaces that held a frame, in ascending order, and each event is the routing
      of the frame that waited at the head of its in-queue, `Lost` exactly when its
      out-queue is full at that point of the pass. The pass fails exactly when some
      waiting head cannot be routed, with the exception of the lowest such interface. A pass over empty in-queues changes
      nothing, and a pass keeps every bounded queue within its bound. */
  function ProcessQueues(r: Router): (res: Result<Pass, RouterError>)
    ensures res.Success? ==> Advanced(r, res.value.router, res.value.events, 0, |r.intfs|)
    ensures res.Success? ==> InIndices(res.value.events) == NonEmptyIndices(r.intfs, |r.intfs|)
    ensures res.Success? ==> forall a, b :: 0 <= a < b < |res.value.events| ==>
      res.value.events[a].inIntf < res.value.events[b].inIntf
    ensures res.Success? ==> forall k :: 0 <= k < |res.value.events| ==>
      res.value.events[k].inIntf < |r.intfs|
    ensures res.Success? ==> forall j :: 0 <= j < |r.intfs| ==>
      (j in InIndices(res.value.events) <==> r.intfs[j].inQueue.items != [])
    ensures (forall j :: 0 <= j < |r.intfs| ==> r.intfs[j].inQueue.items == []) ==>
      res == Success(Pass(r, []))
    ensures res.Success? ==> forall k :: 0 <= k < |res.value.events| ==> Routed(r, res.value.events[k])
    ensures res.Success? ==> LostWhenFull(r, res.value.events)
    ensures res.Failure? <==> exists j :: 0 <= j < |r.intfs| && HeadFails(r, j)
    ensures res.Failure? ==>
      exists j :: 0 <= j < |r.intfs| && HeadFails(r, j) && res.error == HeadError(r, j)
                  && forall k :: 0 <= k < j ==> !HeadFails(r, k)
    ensures res.Success? && RouterValid(r) ==> RouterValid(res.value.router)
  {
    var res := PassUpTo(r, |r.intfs|);
    PassOrder(r, res);
    PassOutcome(r, res);
    IdlePass(r, |r.intfs|);
    assert (forall j :: 0 <= j < |r.intfs| ==> r.intfs[j].inQueue.items == []) ==> IdleBelow(r, |r.intfs|);
    res
  }

  /** A pass that stops at the first failing head fails exactly when some waiting head
      cannot be routed, with the exception of the lowest such interface. */
  lemma PassOutcome(r: Router, res: Result<Pass, RouterError>)
    requires res.Failure? <==> FirstSome(Outcomes(r, |r.intfs|)).Some?
    requires res.Failure? ==> res.error == FirstSome(Outcomes(r, |r.intfs|)).value
    ensures res.Failure? <==> exists j :: 0 <= j < |r.intfs| && HeadFails(r, j)
    ensures res.Failure? ==>
      exists j :: 0 <= j < |r.intfs| && HeadFails(r, j) && res.error == HeadError(r, j)
                  && forall k :: 0 <= k < j ==> !HeadFails(r, k)
  {
    var s := Outcomes(r, |r.intfs|);
    FirstSomeSpec(s);
    if res.Failure? {
      var j :| 0 <= j < |s| && s[j] == FirstSome(s) && forall k :: 0 <= k < j ==> s[k].None?;
      assert HeadFails(r, j) && res.error == HeadError(r, j);
      assert forall k :: 0 <= k < j ==> !HeadFails(r, k) by {
        forall k | 0 <= k < j ensures !HeadFails(r, k) { assert s[k].None?; }
      }
    } else {
      forall j | 0 <= j < |r.intfs| ensures !HeadFails(r, j) { assert s[j].None?; }
    }
  }

  /** Events in reference order visit each busy interface once, in ascending order. */
  lemma PassOrder(r: Router, res: Result<Pass, RouterError>)
    requires res.Success? ==> InIndices(res.value.events) == NonEmptyIndices(r.intfs, |r.intfs|)
    ensures res.Success? ==> forall a, b :: 0 <= a < b < |res.value.events| ==>
      res.value.events[a].inIntf < res.value.events[b].inIntf
    ensures res.Success? ==> forall k :: 0 <= k < |res.value.events| ==>
      res.value.events[k].inIntf < |r.intfs|
    ensures res.Success? ==> forall j :: 0 <= j < |r.intfs| ==>
      (j in InIndices(res.value.events) <==> r.intfs[j].inQueue.items != [])
  {
    NonEmptyIndicesSpec(r.intfs, |r.intfs|);
  }

  /** No frame waits on the in-queues of interfaces below `n`. */
  predicate IdleBelow(r: Router, n: nat)
    requires n <= |r.intfs|
  {
    forall j :: 0 <= j < n ==> r.intfs[j].inQueue.items == []
  }

  /** With nothing waiting on interfaces below `n`, those interfaces pass as a no-op. */
  lemma {:induction false} IdlePass(r: Router, n: nat)
    requires n <= |r.intfs|
    ensures IdleBelow(r, n) ==> PassUpTo(r, n) == Success(Pass(r, []))
  {
    if n > 0 && IdleBelow(r, n) {
      assert IdleBelow(r, n - 1);
      IdlePass(r, n - 1);
      assert r.intfs[n - 1].inQueue.items == [];
      var none: seq<Event> := [];
      assert none + none == none;
    }
  }
}

=== FILE: scenarios.dfy ===
/** Concrete cases of the forwarding step: a host frame from address "1" to "2" with
    payload "hi", taken from interface 0 of a two-interface router whose tables label
    that flow 7 and send label 7 out of interface 1. */
module Scenarios {
  import opened Results
  import opened PyStr
  import opened Links
  import opened Interfaces
  import opened Packets
  import opened Routers
  import opened Hosts
  import opened Lifecycle

  /** The flow as the router sees it: src is the padded field "01". */
  const Flow: FlowKey := FlowKey("01", "2", "0")

  function Arrival(): LinkFrame {
    HostFrame("1", "2", "hi")
  }

  function TwoPorts(encap: map<FlowKey, nat>, frwd: map<nat, nat>, decapFlag: int, outMax: nat, outQueued: seq<LinkFrame>): Router {
    Router(
      [Interface(Fifo([], 0), Fifo([], 0)), Interface(Fifo([], 0), Fifo(outQueued, outMax))],
      Tables(encap, frwd, map[1 := decapFlag]))
  }

  lemma ArrivalDecodes()
    ensures FromByteS(Arrival().dataS) == NetworkPacket("2", "01", "hi", "0")
  {
    DstRoundTrip("2");
    PacketRoundTrip(NetworkPacket("2", "1", "hi", "0"));
  }

  /** Flag 0 keeps the frame label-switched: exactly one "MPLS" envelope, label 7 in
      front of the padded dst and src and the payload, is queued on interface 1. */
  lemma FlagZeroEmitsMpls()
    ensures var r := TwoPorts(map[Flow := 7], map[7 := 1], 0, 0, []);
      var res := ProcessFrame(r, Arrival(), 0);
      && res.Success?
      && res.value.event == Forwarded(0, 1, LinkFrame(MplsType, "7" + "00002" + "01" + "hi"))
      && res.value.router.intfs[1].outQueue.items == [res.value.event.frame]
      && res.value.router.intfs[0] == r.intfs[0]
  {
    ArrivalDecodes();
    var p := NetworkPacket("2", "01", "hi", "0");
    assert KeyOf(p) == Flow;
    assert NatToString(7) == "7";
    assert ZFill("2", DstLength) == "00002" by { assert Zeros(4) == "0000"; }
    assert MplsToByteS(MPLSFrame(p, Num(7))) == "7" + "00002" + "01" + "hi";
  }

  /** A non-zero flag decapsulates: the host's own envelope is queued on interface 1. */
  lemma FlagOneEmitsNetwork()
    ensures var r := TwoPorts(map[Flow := 7], map[7 := 1], 1, 0, []);
      var res := ProcessFrame(r, Arrival(), 0);
      && res.Success?
      && res.value.event == Forwarded(0, 1, Arrival())
      && res.value.router.intfs[1].outQueue.items == [Arrival()]
  {
    var r := TwoPorts(map[Flow := 7], map[7 := 1], 1, 0, []);
    assert ZFill("1", SrcLength) == "01";
    DecapHopPassesHostFrame(r, "1", "2", "hi", 0);
  }

  /** A full out-queue loses the frame and leaves the router as it was. */
  lemma FullQueueLosesFrame(x: LinkFrame)
    ensures var r := TwoPorts(map[Flow := 7], map[7 := 1], 1, 1, [x]);
      var res := ProcessFrame(r, Arrival(), 0);
      && res.Success?
      && res.value.event.Lost?
      && res.value.router == r
  {
    var r := TwoPorts(map[Flow := 7], map[7 := 1], 1, 1, [x]);
    assert ZFill("1", SrcLength) == "01";
    DecapHopPassesHostFrame(r, "1", "2", "hi", 0);
  }

  /** A label with no forwarding entry ends the pass with a lookup error. */
  lemma MissingForwardEntryFails()
    ensures ProcessFrame(TwoPorts(map[Flow := 7], map[], 0, 0, []), Arrival(), 0) == Failure(ForwardMiss(7))
  {
    ArrivalDecodes();
  }

  /** A table keyed by the bare address "1" never matches. */
  lemma BareAddressKeyMisses()
    ensures ProcessFrame(TwoPorts(map[FlowKey("1", "2", "0") := 7], map[7 := 1], 0, 0, []), Arrival(), 0)
         == Failure(EncapMiss(Flow))
  {
    ArrivalDecodes();
  }

  /** With frames waiting on interfaces 0 and 2 of three, a successful pass handles
      exactly those two, interface 0 first. */
  lemma RoundRobinOrder(r: Router, a: LinkFrame, b: LinkFrame)
    requires |r.intfs| == 3
    requires r.intfs[0].inQueue.items == [a] && r.intfs[1].inQueue.items == [] && r.intfs[2].inQueue.items == [b]
    ensures ProcessQueues(r).Success? ==> InIndices(ProcessQueues(r).value.events) == [0, 2]
  {
    assert NonEmptyIndices(r.intfs, 1) == [0];
    assert NonEmptyIndices(r.intfs, 2) == [0];
  }

  /** A full-width dst puts a non-zero digit right after a one-digit label: label 7
      in front of dst "12345" is read back as 71, label 0 as 1. */
  lemma FullWidthDstMisreadsLabel()
    ensures RelabelField(MplsToByteS(MPLSFrame(NetworkPacket("12345", "01", "hi", "0"), Num(7)))) == Success(71)
    ensures RelabelField(MplsToByteS(MPLSFrame(NetworkPacket("12345", "01", "hi", "0"), Num(0)))) == Success(1)
  {
    var p := NetworkPacket("12345", "01", "hi", "0");
    HopRelabels(p, 7);
    HopRelabels(p, 0);
  }
}
